=== FILE: README.md ===
# OArray and OrderedMap in Dafny

This project models the two hand-rolled Swift containers of
`CustomArrayAndDictionary`, and proves properties about the model.

**`OArray<Element>`** is a growable array class. It keeps its elements in
one manually managed buffer of `_capacity` slots. The live elements are the
`_count` slots starting at `_offset`.

- A full buffer grows to `Int(Double(_count) * 1.6) + 1` slots.
- Front removals leave slack before `_offset`. An insert at index 0 reuses
  that slack without reallocating.
- Interior inserts, removals, splices and unequal range replacements move
  the prefix, the new elements and the suffix into a new buffer.
- An equal-length range replacement overwrites in place.
- A sub-range subscript returns a new `OArray` on the same buffer, so
  writes through either object are visible in the other.

**`OrderedMap<Key, Value>`** is an insertion-ordered dictionary. It keeps
three sequences aligned by position: a buffer of key hashes (with the same
offset, count, capacity and growth discipline), the keys, and the values.

- Lookup is a linear scan for the first stored hash equal to the key's
  `hashValue`. Two keys with equal hashes are therefore found at the same
  position.
- `putValue` appends without looking for the key first.
- Iteration yields the pairs in append order.

The project has five files:

- `common.dfy` (module `Common`): `Option`, the growth rule `Grown`, and
  the sequence functions that specify the scans: `MapSeq`, `FilterSeq`,
  `FirstWhere`, `FirstEqual`, `Aligned` and `Zip`.
- `storage.dfy` (module `Storage`): element moves between buffers.
- `oarray.dfy` (module `Arrays`): class `OArray` over an `array<T>`, with
  its generator class.
- `orderedmap.dfy` (module `Maps`): class `OrderedMap`, with its generator
  class and `MapIndex`.
- `scenarios.dfy` (module `Scenarios`): concrete runs of both containers.

Each mutating method is specified against the state it leaves:

- for `OArray`, by `Contents()` (the live window of the buffer) and the
  fields `buf`, `offset`, `cap` and `minCap`;
- for `OrderedMap`, by `keys`, `vals` and `Hashes()` (the live hash
  window), plus the buffer fields.

Read-only scans are loop methods proved equal to a sequence function.

Fatal errors (`fatalError`, or out-of-range indexing of Swift arrays)
become preconditions. Integer parameters that the source uses as counts or
indices are `nat`.

`hashValue` is the constant function field `hash: K -> int` of each map.
Nothing assumes it is injective.

`Valid()` of `OrderedMap` is the alignment invariant:

- the key and value lists hold exactly `count` entries;
- the live hash at position `i` is `hash(keys[i])`.

`Sound()` is the weaker condition that the buffer code itself relies on.

## Model

| member | source | states |
|---|---|---|
| Common.Grown | CustomArrayAndDictionary/OArray.swift:247-252 | the grown capacity of a full buffer exceeds the old count and is at least 1.6 times it |
| Common.MapSeq | CustomArrayAndDictionary/OArray.swift:134-140 | the result of `map` has the input's length and holds `f` of each element at the same position |
| Common.FilterSeq | CustomArrayAndDictionary/OArray.swift:144-153 | the result of `filter` is no longer than the input; it holds only elements of the input that satisfy the predicate, and every satisfying element |
| Common.FilterSeqConcat | CustomArrayAndDictionary/OArray.swift:144-153 | filtering keeps relative order: filtering `a + b` gives filtered `a` followed by filtered `b` |
| Common.FirstWhere | CustomArrayAndDictionary/OArray.swift:460-478 | a found position satisfies the predicate and no earlier one does; nothing is found exactly when no element satisfies it |
| Common.FirstEqual | CustomArrayAndDictionary/OrderedMap.swift:59-65 | a found position holds the hash and no earlier position does; nothing is found exactly when the hash is absent |
| Common.FirstEqualSnoc | CustomArrayAndDictionary/OrderedMap.swift:107-115 | appending a hash never moves an existing first occurrence, and creates one at the new last position only when none existed |
| Common.FirstEqualAfterRemoval | CustomArrayAndDictionary/OrderedMap.swift:181-186 | after the first occurrence of a hash is removed, its next occurrence (shifted down by one) is found; the hash is gone exactly when it did not occur again |
| Common.FirstEqualAligned | CustomArrayAndDictionary/OrderedMap.swift:59-65 | over aligned hashes and keys, the first position holding a hash is the first key with that hash |
| Common.Zip | CustomArrayAndDictionary/OrderedMap.swift:66-73 | pairs keys and values position by position |
| Arrays.OArray.constructor | CustomArrayAndDictionary/OArray.swift:30-34 | `init()`: empty, 10 slots, minimum capacity 10 |
| Arrays.OArray.WithCapacity | CustomArrayAndDictionary/OArray.swift:24-28 | `init(capacity:)`: empty, with the given capacity and minimum capacity |
| Arrays.OArray.Literal | CustomArrayAndDictionary/OArray.swift:14-22 | the array literal: exactly the given elements, in a buffer of that size |
| Arrays.OArray.Copy | CustomArrayAndDictionary/OArray.swift:37-44 | `init(_ buffer:)`: a compacted copy of the other array's contents, capacity equal to its count, its minimum capacity kept |
| Arrays.OArray.FromSequence | CustomArrayAndDictionary/OArray.swift:45-52 | appending the sequence's elements one by one gives exactly that sequence |
| Arrays.OArray.Repeating | CustomArrayAndDictionary/OArray.swift:54-63 | `count` copies of the value, capacity `count`, minimum capacity left at 10 |
| Arrays.OArray.View | CustomArrayAndDictionary/OArray.swift:65-71 | the private slice initialiser: same buffer, `offset` at the range start, minimum capacity the range end |
| Arrays.OArray.Get | CustomArrayAndDictionary/OArray.swift:89-95 | the subscript getter returns the element at that index of the contents |
| Arrays.OArray.Set | CustomArrayAndDictionary/OArray.swift:96-101 | the subscript setter changes that element only, and only buffer slot `offset + i` changes |
| Arrays.OArray.First | CustomArrayAndDictionary/OArray.swift:118-122 | nothing exactly for an empty array, otherwise the first element |
| Arrays.OArray.IsEmpty | CustomArrayAndDictionary/OArray.swift:112-113 | true exactly when the contents are empty |
| Arrays.OArray.EndIndexAsWritten | CustomArrayAndDictionary/OArray.swift:108-110 | as written, `endIndex` is one less than the documented `EndIndex()`: the last valid index of a non-empty array, not one past it |
| Arrays.OArray.EndIndex | CustomArrayAndDictionary/OArray.swift:108-110 | as documented, `endIndex` is the number of elements |
| Arrays.OArray.Capacity | CustomArrayAndDictionary/OArray.swift:216-217 | `capacity` is never less than `count` |
| Arrays.OArray.Map | CustomArrayAndDictionary/OArray.swift:130-141 | the loop yields `MapSeq(f, contents)` |
| Arrays.OArray.Filter | CustomArrayAndDictionary/OArray.swift:142-153 | the loop yields `FilterSeq(p, contents)` |
| Arrays.OArray.Find | CustomArrayAndDictionary/OArray.swift:460-468 | the first element satisfying the predicate, or nothing exactly when none does |
| Arrays.OArray.IndexOf | CustomArrayAndDictionary/OArray.swift:471-478 | the first index satisfying the predicate, or `NSNotFound` exactly when none does |
| Arrays.OArray.Resize | CustomArrayAndDictionary/OArray.swift:234-241 | contents kept, in a fresh buffer of the new capacity, offset 0 |
| Arrays.OArray.ReserveCapacity | CustomArrayAndDictionary/OArray.swift:219-232 | contents kept and the minimum capacity recorded; exactly `m` fresh slots when `count < m`, nothing else changes otherwise; `m <= capacity` afterwards |
| Arrays.OArray.Append | CustomArrayAndDictionary/OArray.swift:244-252 | contents gain `x` at the end; a full buffer grows to `Grown(count)` with offset 0 and the old buffer, which slices may still share, keeps its contents; otherwise only slot `offset + count` changes |
| Arrays.OArray.Extend | CustomArrayAndDictionary/OArray.swift:254-282 | as written: the first `|n|` positions become `n`, the old elements from `|n|` on stay, `count` grows by `|n|`, and the capacity rule of `extend`; without reallocation only the buffer slots `offset ..< offset + |n|` change, with reallocation the old buffer, which slices may still share, keeps its contents |
| Arrays.OArray.AppendAll | CustomArrayAndDictionary/OArray.swift:254-268 | `extend` as documented: contents gain `n` at the end, under the same capacity rule; without reallocation only the buffer slots after the last element that receive `n` change, with reallocation the old buffer, which slices may still share, keeps its contents |
| Arrays.OArray.RemoveLast | CustomArrayAndDictionary/OArray.swift:284-295 | returns the last element and drops it; buffer, offset and capacity unchanged |
| Arrays.OArray.RemoveFirst | CustomArrayAndDictionary/OArray.swift:297-302 | returns the first element and drops it; `offset` grows by one, buffer and capacity unchanged |
| Arrays.OArray.Insert | CustomArrayAndDictionary/OArray.swift:304-330 | contents become prefix, `x`, suffix; at index 0 with slack the buffer and capacity stay, `offset` drops by one and only that slot of the buffer changes; otherwise a fresh buffer with offset 0, grown only when the old one was full, and the old buffer, which slices may still share, keeps its contents |
| Arrays.OArray.RemoveAt | CustomArrayAndDictionary/OArray.swift:332-355 | returns the element at `i` and removes it, capacity unchanged; index 0 and the last index keep the buffer, an interior index moves to a fresh buffer with offset 0 |
| Arrays.OArray.RemoveAll | CustomArrayAndDictionary/OArray.swift:357-371 | contents empty and offset 0; the buffer is kept with `keepCapacity`, otherwise replaced by `minCap` fresh slots |
| Arrays.OArray.ReplaceRange | CustomArrayAndDictionary/OArray.swift:373-408 | contents become prefix, `n`, suffix; an equal-length replacement writes only those slots in place; any other length gives a fresh buffer of exactly the new count with offset 0, and the old buffer, which slices may still share, keeps its contents |
| Arrays.OArray.RemoveRange | CustomArrayAndDictionary/OArray.swift:202-204 | contents lose the range; an empty range changes nothing; a non-empty one gives a fresh buffer, and the old buffer, which slices may still share, keeps its contents |
| Arrays.OArray.Splice | CustomArrayAndDictionary/OArray.swift:172-200 | contents become prefix, `n`, suffix; with more front slack than new elements at index 0 they go into the slack slots just before `offset`, and no other slot of the buffer changes; otherwise a fresh buffer with offset 0, enlarged to `count + |n|` only when they would not fit, and the old buffer, which slices may still share, keeps its contents |
| Arrays.OArray.Slice | CustomArrayAndDictionary/OArray.swift:206-212 | a new array on the same buffer at `offset + lo`, same capacity; its contents are the parent's sub-range |
| Arrays.OArray.Generate | CustomArrayAndDictionary/OArray.swift:85-87 | as written: the generator covers buffer slots `0 ..< count`, which are the contents only when `offset` is 0 |
| Arrays.OArray.GenerateLive | CustomArrayAndDictionary/OArray.swift:85-87 | as intended: the generator covers exactly the contents |
| Arrays.OArrayGenerator.constructor | CustomArrayAndDictionary/OArray.swift:507-511 | the cursor starts at the beginning of the given range |
| Arrays.OArrayGenerator.Next | CustomArrayAndDictionary/OArray.swift:513-516 | yields the next slot of the range and advances, or nothing once the range is used up |
| Arrays.Iterate | CustomArrayAndDictionary/OArray.swift:85-87 | `for x in a` yields the first `count` buffer slots, which equal the contents only when `offset` is 0 |
| Arrays.IterateLive | CustomArrayAndDictionary/OArray.swift:502-517 | iteration through the corrected generator yields exactly the contents |
| Arrays.Plus | CustomArrayAndDictionary/OArray.swift:156-159 | `+` appends to the left operand and returns that same object, with the buffer effects of `append`: a full buffer is replaced and the old one keeps its contents, otherwise only slot `offset + count` changes |
| Arrays.ViewAgrees | CustomArrayAndDictionary/OArray.swift:208-212 | while a slice and its parent address the same buffer, the slice's contents are the parent's sub-range |
| Arrays.WriteThroughSlice | CustomArrayAndDictionary/OArray.swift:208-212 | a write through a slice shows up in the parent at the shifted index |
| Arrays.ReallocationKeepsSharers | CustomArrayAndDictionary/OArray.swift:247-251 | appending to the last slice of `[1, 2, 3]` moves only that slice (`[3, 9]`) and leaves the parent `[1, 2, 3]`; an interior insert into the parent leaves a slice of its first two elements at `[1, 2]` |
| Arrays.InsertKeepsSiblingSlice | CustomArrayAndDictionary/OArray.swift:309-316 | inserting into the front slack of one slice of `[1, 2, 3]` leaves a sibling slice at `[2, 3]` and shows in the parent as `[99, 2, 3]` |
| Arrays.RemoveLastAsWritten | CustomArrayAndDictionary/OArray.swift:287-295 | as written, `removeLast` returns buffer slot `count - 1`, which is the last element only when `offset` is 0 |
| Arrays.RemoveLastAsWrittenMisses | CustomArrayAndDictionary/OArray.swift:291 | with one slot of slack before `[20, 30]`, the as-written result is 20, not 30 |
| Arrays.SpliceFrontAsWritten | CustomArrayAndDictionary/OArray.swift:177-183 | the as-written front path of `splice` finishes only for empty input, and then grows `count` by one with `offset` unchanged |
| Arrays.FrontLoop | CustomArrayAndDictionary/OArray.swift:179-182 | the loop with `j++` finishes only when `j` starts below 0, growing `count` by one afterwards |
| Arrays.SpliceFrontAsWrittenFails | CustomArrayAndDictionary/OArray.swift:177-183 | the as-written front path of `splice` traps for any non-empty input and, for empty input, grows `count` by one |
| Arrays.FrontLoopTraps | CustomArrayAndDictionary/OArray.swift:179-181 | the increasing loop index always runs past the end of the new elements |
| Arrays.ExtendOverwritesFront | CustomArrayAndDictionary/OArray.swift:257-268 | extending `[1, 2, 3]` by `[9]` gives `[9, 2, 3, _]`, not `[1, 2, 3, 9]` |
| Arrays.RemoveAtLastAfterRemoveFirst | CustomArrayAndDictionary/OArray.swift:341-344 | `[10, 20, 30]` minus its first element, then removing index 1: as written (through `removeLast`) 20, in the model's `RemoveAt` 30, leaving `[20]` |
| Arrays.IterateAfterRemoveFirst | CustomArrayAndDictionary/OArray.swift:85-87 | `[1, 2, 3]` minus its first element has contents `[2, 3]` but iterates as `[1, 2]` |
| Maps.MapIndex.Successor | CustomArrayAndDictionary/OrderedMap.swift:347-352 | the successor is strictly after the position, and the positions after it are exactly those at or after the successor |
| Maps.Less | CustomArrayAndDictionary/OrderedMap.swift:317-319 | `<` never relates a position to itself and never holds both ways |
| Maps.LessEq | CustomArrayAndDictionary/OrderedMap.swift:320-322 | `<=` is `<` or `==` |
| Maps.Greater | CustomArrayAndDictionary/OrderedMap.swift:326-328 | `>` is `<` with the operands swapped |
| Maps.GreaterEq | CustomArrayAndDictionary/OrderedMap.swift:323-325 | `>=` is `<=` with the operands swapped |
| Maps.PositionOrder | CustomArrayAndDictionary/OrderedMap.swift:314-328 | the operators form a total order: exactly one of `<`, `==`, `>`; `<` transitive; `>=` the negation of `<` |
| Maps.OrderedMap.PositionIsFirstMatchingKey | CustomArrayAndDictionary/OrderedMap.swift:59-65 | lookup finds the first key whose hash equals the key's hash, not necessarily the key itself |
| Maps.OrderedMap.constructor | CustomArrayAndDictionary/OrderedMap.swift:24-26 | `init()`: empty, capacity and minimum capacity 10 |
| Maps.OrderedMap.WithMinimumCapacity | CustomArrayAndDictionary/OrderedMap.swift:30-38 | empty, capacity and minimum capacity `m` |
| Maps.OrderedMap.Literal | CustomArrayAndDictionary/OrderedMap.swift:220-236 | the pairs in the order given (repeated keys kept), capacity equal to their number |
| Maps.OrderedMap.IndexForKey | CustomArrayAndDictionary/OrderedMap.swift:57-65 | the first position whose stored hash equals the key's, or nothing exactly when there is none |
| Maps.OrderedMap.Get | CustomArrayAndDictionary/OrderedMap.swift:88-93 | the key getter returns the value at that first position, or nothing |
| Maps.OrderedMap.At | CustomArrayAndDictionary/OrderedMap.swift:67-73 | the position getter returns the pair at `p`, whose key hashes to the stored hash |
| Maps.OrderedMap.Resize | CustomArrayAndDictionary/OrderedMap.swift:254-271 | hashes, keys and values kept, in a fresh hash buffer of the new capacity with offset 0 |
| Maps.OrderedMap.PutValue | CustomArrayAndDictionary/OrderedMap.swift:107-115 | appends hash, key and value and returns the old count; an earlier position of the key is not moved; on a valid map a new key then looks up to `v`; growth as in `append` |
| Maps.OrderedMap.SetAt | CustomArrayAndDictionary/OrderedMap.swift:74-85 | the position setter appends at `count`, otherwise replaces hash, key and value at `p` only |
| Maps.OrderedMap.UpdateValue | CustomArrayAndDictionary/OrderedMap.swift:116-129 | returns the old lookup result and afterwards the key looks up to `v`; a found key changes only its value, an absent key is appended |
| Maps.OrderedMap.RemoveLast | CustomArrayAndDictionary/OrderedMap.swift:158-168 | returns the last pair and drops it from keys and values |
| Maps.OrderedMap.RemoveFirst | CustomArrayAndDictionary/OrderedMap.swift:170-176 | returns the first pair and drops it; `offset` grows by one |
| Maps.OrderedMap.RemoveAt | CustomArrayAndDictionary/OrderedMap.swift:130-152 | returns the pair at `p` and removes position `p` from hashes, keys and values together, capacity unchanged |
| Maps.OrderedMap.PopFirst | CustomArrayAndDictionary/OrderedMap.swift:154-157 | nothing and no change on an empty map, otherwise the first pair, removed |
| Maps.OrderedMap.RemoveValueForKey | CustomArrayAndDictionary/OrderedMap.swift:178-186 | returns the old lookup result; an absent key changes nothing; a found key loses exactly its first position, and is then gone exactly when no later key shares its hash |
| Maps.OrderedMap.SetValue | CustomArrayAndDictionary/OrderedMap.swift:94-104 | a value replaces the value at the key's first position (the key then looks up to it) and inserts nothing for an absent key; nil removes that position, after which the key is gone exactly when no later key shares its hash |
| Maps.OrderedMap.ReplaceValue | CustomArrayAndDictionary/OrderedMap.swift:96-98 | only the value at the key's first position changes, and the key then looks up to the new value |
| Maps.OrderedMap.RemoveAll | CustomArrayAndDictionary/OrderedMap.swift:187-207 | as documented: no pairs left, the key and value lists included; the capacity rule of `removeAll` |
| Maps.OrderedMap.RemoveAllAsWritten | CustomArrayAndDictionary/OrderedMap.swift:199-207 | as written: `count` and `offset` drop to 0 but keys and values stay, so a non-empty map loses the alignment invariant |
| Maps.OrderedMap.ReserveCapacity | CustomArrayAndDictionary/OrderedMap.swift:239-252 | contents kept and the minimum capacity recorded; exactly `m` fresh slots when `count < m`; `m <= capacity` afterwards |
| Maps.OrderedMap.Keys | CustomArrayAndDictionary/OrderedMap.swift:273-280 | the keys of the pairs in order, each hashing to its position's stored hash |
| Maps.OrderedMap.Values | CustomArrayAndDictionary/OrderedMap.swift:281-287 | the values of the pairs in order |
| Maps.OrderedMap.Count | CustomArrayAndDictionary/OrderedMap.swift:208-213 | the number of pairs |
| Maps.OrderedMap.IsEmpty | CustomArrayAndDictionary/OrderedMap.swift:288-289 | true exactly when there are no pairs |
| Maps.OrderedMap.StartIndex | CustomArrayAndDictionary/OrderedMap.swift:39-47 | the least non-negative position (0), a valid position of any non-empty map |
| Maps.OrderedMap.EndIndexAsWritten | CustomArrayAndDictionary/OrderedMap.swift:48-56 | as written, `endIndex` is the position whose successor is the documented `EndIndex()`: the last valid position of a non-empty map, not one past it |
| Maps.OrderedMap.EndIndex | CustomArrayAndDictionary/OrderedMap.swift:48-56 | as documented: `endIndex` is at or after `startIndex` (so equal to it on an empty map), and the positions from `startIndex` up to `endIndex` are exactly the valid ones |
| Maps.OrderedMap.Generate | CustomArrayAndDictionary/OrderedMap.swift:214-219 | a generator over this map, at position 0 |
| Maps.OrderedMapGenerator.constructor | CustomArrayAndDictionary/OrderedMap.swift:356-362 | the cursor starts at position 0 of the given map |
| Maps.OrderedMapGenerator.Next | CustomArrayAndDictionary/OrderedMap.swift:364-369 | yields the pair at the cursor and advances, or nothing once the cursor reaches `count` |
| Maps.Iterate | CustomArrayAndDictionary/OrderedMap.swift:356-370 | `for (k, v) in m` yields the pairs in insertion order |
| Maps.StaleValueAfterRemoveAll | CustomArrayAndDictionary/OrderedMap.swift:199-207 | after the as-written `removeAll`, putting `(2, "b")` into a map that held `(1, "a")` makes key 2 look up to `"a"` |
| Maps.FreshValueAfterRemoveAll | CustomArrayAndDictionary/OrderedMap.swift:199-207 | the same steps with the corrected `RemoveAll` make key 2 look up to `"b"` |
| Scenarios.AppendToLiteral | CustomArrayAndDictionary/OArray.swift:247-252 | appending 4 to `[1, 2, 3]` gives `[1, 2, 3, 4]` with capacity 5 |
| Scenarios.InsertIntoFrontSlack | CustomArrayAndDictionary/OArray.swift:309-316 | after two front removals, inserting 99 at index 0 gives `[99, 1, 2, 3]` on the same buffer with the same buffer size `_capacity`; the public `capacity`, which excludes the slack, goes from 3 to 4 |
| Scenarios.UpdateKeepsOrder | CustomArrayAndDictionary/OrderedMap.swift:121-129 | updating 1, 2, then 1 again iterates as `[(1, "c"), (2, "b")]` and the third call returns `"a"` |
| Scenarios.RemoveMiddle | CustomArrayAndDictionary/OArray.swift:337-355 | removing index 1 of `[10, 20, 30]` returns 20 and leaves `[10, 30]` |

## Left out

- Manual memory management is not modelled: `deinit`, `alloc`, `dealloc`, `destroy` and `move`. Moves are modelled as copies.
  - `OArray.deinit` frees the buffer even when a slice still uses it.
  - On a slice, these paths also destroy or free the storage its parent still uses: `resizeUnsafeCapacity` (OArray.swift line 237), `splice` (195-196), `insert` (326-327), `removeAtIndex` (349-350), `removeAll` (363-365) and `replaceRange` (400-401). In the model the slice moves to a fresh buffer and the parent keeps its elements.
  - `OrderedMap.removeLast` destroys hash slot `count` without adding `_offset`.

  None of these is modelled, because freed or destroyed memory has no counterpart among Dafny values.
- The `Double` arithmetic of the growth factor is not modelled. `Grown` uses the integer reading `count * 8 / 5 + 1` instead.
- `_releaseBuffer` is not a separate member. Its effect (new capacity, offset 0) is part of `Maps.OrderedMap.Resize`, `Maps.OrderedMap.RemoveInterior`, `Maps.OrderedMap.RemoveAll` and `Maps.OrderedMap.RemoveAllAsWritten`.
- The `_slice` flag of `OrderedMap` is not modelled, because nothing sets it to true.
- Negative integer arguments are not modelled. Counts and indices are `nat`, so negative indices, capacities and counts are outside the model.
  - The subscript of `OArray` (OArray.swift lines 91 and 97), `insert` (310) and `replaceRange` (381) check only the upper bound. After a `removeFirst()`, index -1 reads or writes the front-slack slot without trapping; the model does not capture this.
- `OrderedMap` positions are `MapIndex` values over `int`. Their raw value must lie in range.
- `hashValue` is an uninterpreted function. No particular hash function is modelled.
- The generic parameters of the source are not modelled:
  - `SequenceType` and `CollectionType` arguments become sequences;
  - the sub-range setter is `Arrays.OArray.ReplaceRange`, called with a sequence.
- `ContiguousArray` storage for the map's keys and values is modelled as sequences, so its own growth is not modelled.
- The stubs `join`, `reduce` and `sort` are not modelled. They do not do what their documentation says.
- Not modelled, because they are string formatting or runtime reflection:
  - `description`, `debugDescription`, `componentsJoinedByString`;
  - `_Reflectable`, `_getMirror`, `_baseAddressIfContiguous`.
- `+=` on arrays (OArray.swift line 162) only calls `extend`, so it is `Arrays.OArray.Extend` and has no member of its own.
- Not modelled, because they lie outside the core modelled here: `valuesFor` and `underestimateCount`.
- `main.swift` (a timing benchmark) is not part of this model.
- Arrays.OArray.Slice: the source checks nothing about the range. The model requires `lo <= hi` and `offset + hi <= cap`, so that the slice lies inside the buffer, and states the slice's contents only when `hi <= count`.
- Arrays.OArray.Splice: the front fast path is modelled as corrected, not as written. The as-written path is `Arrays.SpliceFrontAsWritten`.
- Maps.OrderedMap.PutValue: that the new key then looks up to `v` is stated only for a map satisfying `Valid()`. After the as-written `removeAll` it does not hold (see Findings).
- Arrays.OArray.RemoveAt: at the last index the source calls the as-written `removeLast`, which with front slack returns the wrong element. The model's `RemoveAt` calls the corrected `RemoveLast` and returns the removed element; `Arrays.RemoveAtLastAfterRemoveFirst` shows both results.

Where the documented behaviour and the code differ in a way the documentation evidently intends, the code is modelled by an as-written member and the documentation by a corrected member, which the other operations use. Each such pair is a row of Findings. This happens for:

- `removeLast` on an array (and so `removeAtIndex` at the last index);
- `extend`;
- the splice fast path;
- `generate` on an array;
- `endIndex`;
- `removeAll` on a map.

In these places the documentation and the code differ, and the model follows the code without a finding:

- `removeAll(keepCapacity: false)` on an array (OArray.swift lines 359 and 366) and on a map (OrderedMap.swift lines 189-190 and 203) is documented to leave capacity 0. The code allocates `_minimumCapacity` slots.
- `init(minimumCapacity:)` of a map (OrderedMap.swift lines 28-31) is documented to round the capacity up to a power of 2. The code uses exactly the given number.
- `keys` of a map (OrderedMap.swift lines 276-277) is documented to hold each key once. `putValue`, the position setter and the dictionary literal can store a key twice, and `keys` then lists it twice.

## Findings

| source | as written | input that shows it | evidently intended | confidence | as-written member | corrected member |
|---|---|---|---|---|---|---|
| CustomArrayAndDictionary/OArray.swift:291 | `removeLast` reads slot `count - 1` of the buffer, ignoring `_offset` | `[10, 20, 30]`, `removeFirst()`, then `removeLast()` (or `removeAtIndex(1)`, which calls it) returns 20 (`Arrays.RemoveAtLastAfterRemoveFirst`) | return the last element, 30 | high, not executed | Arrays.RemoveLastAsWritten | Arrays.OArray.RemoveLast |
| CustomArrayAndDictionary/OArray.swift:177-183 | the front fast path of `splice` starts `j` at `length - 1` and increments it, and bumps `_count` by one | any non-empty splice at index 0 with more slack than elements runs `j` past the end of the new elements | write the elements into the slack and grow `count` by their number | high, not executed | Arrays.SpliceFrontAsWritten | Arrays.OArray.Splice |
| CustomArrayAndDictionary/OArray.swift:257-282 | `extend` writes the new elements from `_offset` on, over the first elements | `[1, 2, 3]` extended by `[9]` starts `[9, 2, 3]` | append: `[1, 2, 3, 9]` | high, not executed | Arrays.OArray.Extend | Arrays.OArray.AppendAll |
| CustomArrayAndDictionary/OArray.swift:86 | `generate` covers buffer slots `0 ..< _count`, ignoring `_offset` | `[1, 2, 3]`, `removeFirst()`, then iterating yields `[1, 2]` | iterate the contents `[2, 3]` | high, not executed | Arrays.OArray.Generate | Arrays.OArray.GenerateLive |
| CustomArrayAndDictionary/OArray.swift:110 | `endIndex` is `_count - 1` | a one-element array has `startIndex == endIndex`, an empty index range | one past the last index, `_count` | medium, not executed | Arrays.OArray.EndIndexAsWritten | Arrays.OArray.EndIndex |
| CustomArrayAndDictionary/OrderedMap.swift:56 | `endIndex` is `_count - 1` | a one-element map has `startIndex == endIndex`, an empty index range | one past the last position, `_count` | medium, not executed | Maps.OrderedMap.EndIndexAsWritten | Maps.OrderedMap.EndIndex |
| CustomArrayAndDictionary/OrderedMap.swift:199-207 | `removeAll` resets the hash buffer, count and offset, but not `_keys` and `_values` | `[1: "a"]`, `removeAll(keepCapacity: true)`, `putValue("b", forKey: 2)`, then `m[2]` is `"a"` (`Maps.StaleValueAfterRemoveAll`) | clear the keys and values too, so `m[2]` is `"b"` | high, not executed | Maps.OrderedMap.RemoveAllAsWritten | Maps.OrderedMap.RemoveAll |

=== FILE: common.dfy ===
/** Definitions shared by the growable array and the ordered map: an
    optional value, the growth rule of both buffers, and the pure sequence
    functions that specify the read-only scans of the two containers. */
module Common {

  /** Swift's `T?`. */
  datatype Option<T> = None | Some(value: T)

  /** Capacity a full buffer holding `count` elements grows to:
      `Int(Double(count) * 1.6) + 1`, read on integers as `count * 8 / 5 + 1`.
      The new buffer always has room for one more element, and never less
      than 1.6 times the old count. */
  function Grown(count: nat): (c: nat)
    ensures count < c
    ensures count * 8 <= c * 5
  {
    count * 8 / 5 + 1
  }

  /** The elements of `s` transformed by `f`, in order (`map`). */
  function MapSeq<T, U>(f: T -> U, s: seq<T>): (r: seq<U>)
    ensures |r| == |s|
    ensures forall i :: 0 <= i < |s| ==> r[i] == f(s[i])
  {
    if s == [] then [] else [f(s[0])] + MapSeq(f, s[1..])
  }

  /** The elements of `s` that satisfy `p`, in their original order (`filter`).
      Defined from the back so that it follows a loop that appends. */
  function FilterSeq<T>(p: T -> bool, s: seq<T>): (r: seq<T>)
    ensures |r| <= |s|
    ensures forall i :: 0 <= i < |r| ==> r[i] in s && p(r[i])
    ensures forall i :: 0 <= i < |s| && p(s[i]) ==> s[i] in r
  {
    if s == [] then []
    else
      var init := FilterSeq(p, s[..|s| - 1]);
      assert s == s[..|s| - 1] + [s[|s| - 1]];
      if p(s[|s| - 1]) then init + [s[|s| - 1]] else init
  }

  /** Filtering keeps relative order: filtering a concatenation is the
      concatenation of the filtered parts. */
  lemma {:induction false} FilterSeqConcat<T>(p: T -> bool, a: seq<T>, b: seq<T>)
    ensures FilterSeq(p, a + b) == FilterSeq(p, a) + FilterSeq(p, b)
    decreases |b|
  {
    if b == [] {
      assert a + b == a;
    } else {
      var b' := b[..|b| - 1];
      FilterSeqConcat(p, a, b');
      assert (a + b)[..|a + b| - 1] == a + b';
    }
  }

  /** Position of the first element of `s` that satisfies `p`, if any
      (the scan behind `find` and `indexOf`). */
  function FirstWhere<T>(p: T -> bool, s: seq<T>): (r: Option<nat>)
    ensures r.Some? ==> r.value < |s| && p(s[r.value])
    ensures r.Some? ==> forall j :: 0 <= j < r.value ==> !p(s[j])
    ensures r.None? <==> forall j :: 0 <= j < |s| ==> !p(s[j])
  {
    if s == [] then None
    else if p(s[0]) then Some(0)
    else match FirstWhere(p, s[1..])
      case None => None
      case Some(i) => Some(i + 1)
  }

  /** Position of the first occurrence of `h` in `s`, if any (the hash scan
      of the ordered map's lookup). */
  function FirstEqual(s: seq<int>, h: int): (r: Option<nat>)
    ensures r.Some? ==> r.value < |s| && s[r.value] == h && h !in s[..r.value]
    ensures r.None? <==> h !in s
  {
    if s == [] then None
    else if s[0] == h then Some(0)
    else match FirstEqual(s[1..], h)
      case None => None
      case Some(i) =>
        assert s[..i + 1] == [s[0]] + s[1..][..i];
        Some(i + 1)
  }

  /** Appending to a sequence never moves an earlier first occurrence; it
      creates one only at the new last position, and only when none existed. */
  lemma FirstEqualSnoc(s: seq<int>, x: int, h: int)
    ensures FirstEqual(s + [x], h) ==
      if FirstEqual(s, h).Some? then FirstEqual(s, h)
      else if x == h then Some(|s|)
      else None
  {
    var t := s + [x];
    assert t[..|s|] == s;
    match FirstEqual(s, h)
    case Some(p) =>
      assert t[..p] == s[..p];
    case None =>
  }

  /** Removing the first occurrence of `h` from `s`: the next occurrence, if
      any, becomes the first, so `h` is gone exactly when it occurred once. */
  lemma FirstEqualAfterRemoval(s: seq<int>, h: int, p: nat)
    requires FirstEqual(s, h) == Some(p)
    ensures FirstEqual(s[..p] + s[p + 1..], h) ==
      match FirstEqual(s[p + 1..], h)
      case None => None
      case Some(q) => Some(p + q)
    ensures FirstEqual(s[..p] + s[p + 1..], h).None? <==> h !in s[p + 1..]
  {
    var t := s[..p] + s[p + 1..];
    match FirstEqual(s[p + 1..], h)
    case None =>
    case Some(q) =>
      assert t[p + q] == s[p + 1..][q];
      assert t[..p + q] == s[..p] + s[p + 1..][..q];
  }

  /** A position holding `h` with no `h` before it is the first occurrence. */
  lemma FirstEqualAt(s: seq<int>, h: int, i: nat)
    requires i < |s| && s[i] == h && h !in s[..i]
    ensures FirstEqual(s, h) == Some(i)
  {
    assert s[i] == h;
  }

  /** `hs` holds `f` of each element of `s`, position by position. */
  ghost predicate Aligned<T>(hs: seq<int>, f: T -> int, s: seq<T>)
  {
    |hs| == |s| && forall i :: 0 <= i < |s| ==> hs[i] == f(s[i])
  }

  /** Over aligned sequences, the first occurrence of `h` among the hashes
      is the first element of `s` whose hash is `h`. */
  lemma FirstEqualAligned<T>(hs: seq<int>, f: T -> int, s: seq<T>, h: int)
    requires Aligned(hs, f, s)
    ensures FirstEqual(hs, h) == FirstWhere(x => f(x) == h, s)
  {
    var p := (x: T) => f(x) == h;
    var w := FirstWhere(p, s);
    match w
    case None =>
      assert h !in hs by {
        forall j | 0 <= j < |hs| ensures hs[j] != h {
          assert !p(s[j]);
        }
      }
    case Some(i) =>
      assert h !in hs[..i] by {
        forall j | 0 <= j < i ensures hs[..i][j] != h {
          assert !p(s[j]);
        }
      }
      FirstEqualAt(hs, h, i);
  }

  /** Pairs up two sequences position by position. */
  function Zip<A, B>(a: seq<A>, b: seq<B>): (r: seq<(A, B)>)
    requires |a| == |b|
    ensures |r| == |a|
    ensures forall i :: 0 <= i < |a| ==> r[i] == (a[i], b[i])
  {
    if a == [] then [] else [(a[0], b[0])] + Zip(a[1..], b[1..])
  }
}

=== FILE: oarray.dfy ===
/** The growable array `OArray`: a contiguous buffer of `cap` slots whose
    live elements are the `count` slots starting at `offset`. Front removals
    leave slack before `offset`; slices share the parent's buffer. */
module Arrays {
  import opened Common
  import opened Storage

  /** Foundation's `NSNotFound` (`Int.max` on a 64-bit platform), which
      `indexOf` returns when no element matches. */
  const NotFound: int := 0x7fff_ffff_ffff_ffff

  /** Capacity and minimum capacity of an array made by `init()`. */
  const DefaultCapacity: nat := 10

  class OArray<T(0)> {
    /** The storage (`_pointer`), possibly shared with slices. */
    var buf: array<T>
    var offset: nat
    var count: nat
    var cap: nat
    var minCap: nat

    ghost predicate Valid()
      reads this
    {
      offset + count <= cap && cap == buf.Length
    }

    /** The logical contents: `count` elements starting at `offset`. */
    function Contents(): seq<T>
      reads this, buf
      requires Valid()
    {
      buf[offset..offset + count]
    }

    /** `init()`: empty, ten slots. */
    constructor ()
      ensures Valid() && fresh(buf) && Contents() == []
      ensures offset == 0 && cap == DefaultCapacity && minCap == DefaultCapacity
    {
      buf := new T[DefaultCapacity];
      offset, count, cap, minCap := 0, 0, DefaultCapacity, DefaultCapacity;
    }

    /** `init(capacity:)`: empty, with exactly `capacity` slots. */
    constructor WithCapacity(capacity: nat)
      ensures Valid() && fresh(buf) && Contents() == []
      ensures offset == 0 && cap == capacity && minCap == capacity
    {
      buf := new T[capacity];
      offset, count, cap, minCap := 0, 0, capacity, capacity;
    }

    /** `init(arrayLiteral:)`: the elements, in a buffer exactly their size. */
    constructor Literal(elements: seq<T>)
      ensures Valid() && fresh(buf) && Contents() == elements
      ensures offset == 0 && cap == |elements| && minCap == |elements|
    {
      var b := new T[|elements|];
      WriteSlots(b, 0, elements);
      buf := b;
      offset, count, cap, minCap := 0, |elements|, |elements|, |elements|;
    }

    /** `init(_ buffer:)`: a compacted copy of another array's contents,
        keeping its minimum capacity. */
    constructor Copy(other: OArray<T>)
      requires other.Valid()
      ensures Valid() && fresh(buf) && Contents() == other.Contents()
      ensures offset == 0 && cap == other.count && minCap == other.minCap
    {
      var b := new T[other.count];
      WriteSlots(b, 0, other.Contents());
      buf := b;
      offset, count, cap, minCap := 0, other.count, other.count, other.minCap;
    }

    /** `init(_ s:)`: starts from `init()` and appends every element of `s`. */
    constructor FromSequence(s: seq<T>)
      ensures Valid() && fresh(buf) && Contents() == s && minCap == DefaultCapacity
    {
      buf := new T[DefaultCapacity];
      offset, count, cap, minCap := 0, 0, DefaultCapacity, DefaultCapacity;
      new;
      for k := 0 to |s|
        invariant Valid() && fresh(buf) && Contents() == s[..k] && minCap == DefaultCapacity
      {
        Append(s[k]);
        assert s[..k + 1] == s[..k] + [s[k]];
      }
    }

    /** `init(count:repeatedValue:)`: `n` copies of `x` in a buffer of `n`
        slots; the minimum capacity keeps its default of ten. */
    constructor Repeating(n: nat, x: T)
      ensures Valid() && fresh(buf) && |Contents()| == n
      ensures forall i :: 0 <= i < n ==> Contents()[i] == x
      ensures offset == 0 && cap == n && minCap == DefaultCapacity
    {
      buf := new T[n](_ => x);
      offset, count, cap, minCap := 0, n, n, DefaultCapacity;
    }

    /** The private slice initialiser: a view of `storage[lo..hi)` that does
        not own its storage; its minimum capacity is `hi`. */
    constructor View(storage: array<T>, lo: nat, hi: nat, capacity: nat)
      requires lo <= hi <= capacity == storage.Length
      ensures Valid() && buf == storage && Contents() == storage[lo..hi]
      ensures offset == lo && count == hi - lo && cap == capacity && minCap == hi
    {
      buf := storage;
      offset, count, cap, minCap := lo, hi - lo, capacity, hi;
    }

    /** Subscript getter. */
    function Get(i: nat): (x: T)
      reads this, buf
      requires Valid() && i < count
      ensures x == Contents()[i]
    {
      buf[offset + i]
    }

    /** Subscript setter: only slot `offset + i` of the storage changes, so
        every array sharing the storage sees the write. */
    method Set(i: nat, x: T)
      requires Valid() && i < count
      modifies buf
      ensures Valid() && Contents() == old(Contents())[i := x]
      ensures buf[..] == old(buf[..])[offset + i := x]
    {
      buf[offset + i] := x;
    }

    /** `first`. */
    function First(): (r: Option<T>)
      reads this, buf
      requires Valid()
      ensures r.None? <==> Contents() == []
      ensures r.Some? ==> r.value == Contents()[0]
    {
      if count == 0 then None else Some(buf[offset])
    }

    /** `isEmpty`. */
    function IsEmpty(): (b: bool)
      reads this, buf
      requires Valid()
      ensures b <==> Contents() == []
    {
      count == 0
    }

    /** `endIndex`, as written: the last index rather than one past it, so
        the indices from `startIndex` (always 0) up to it leave out the last
        element. */
    function EndIndexAsWritten(): (e: int)
      reads this, buf
      requires Valid()
      ensures e + 1 == EndIndex()
      ensures |Contents()| > 0 ==> 0 <= e < |Contents()|
    {
      count - 1
    }

    /** `endIndex` as documented: the successor of the last valid index,
        the number of elements. */
    function EndIndex(): (e: nat)
      reads this, buf
      requires Valid()
      ensures e == |Contents()|
    {
      count
    }

    /** `capacity`: the slots from `offset` to the end of the storage. */
    function Capacity(): (c: nat)
      reads this
      requires Valid()
      ensures count <= c
    {
      cap - offset
    }

    method Map<U>(f: T -> U) returns (r: seq<U>)
      requires Valid()
      ensures r == MapSeq(f, Contents())
    {
      r := [];
      for i := 0 to count
        invariant |r| == i
        invariant forall j :: 0 <= j < i ==> r[j] == f(Contents()[j])
      {
        r := r + [f(buf[offset + i])];
      }
    }

    method Filter(p: T -> bool) returns (r: seq<T>)
      requires Valid()
      ensures r == FilterSeq(p, Contents())
    {
      r := [];
      for i := 0 to count
        invariant r == FilterSeq(p, Contents()[..i])
      {
        var item := buf[offset + i];
        assert Contents()[..i + 1][..i] == Contents()[..i];
        if p(item) {
          r := r + [item];
        }
      }
      assert Contents()[..count] == Contents();
    }

    /** `find`: the first element satisfying `p`. */
    method Find(p: T -> bool) returns (r: Option<T>)
      requires Valid()
      ensures r == match FirstWhere(p, Contents())
                   case None => None
                   case Some(i) => Some(Contents()[i])
    {
      for i := 0 to count
        invariant forall j :: 0 <= j < i ==> !p(Contents()[j])
      {
        var item := buf[offset + i];
        if p(item) {
          return Some(item);
        }
      }
      return None;
    }

    /** `indexOf`: the index of the first element satisfying `p`, or
        `NotFound`. */
    method IndexOf(p: T -> bool) returns (r: int)
      requires Valid()
      ensures r == match FirstWhere(p, Contents())
                   case None => NotFound
                   case Some(i) => i
    {
      for i := 0 to count
        invariant forall j :: 0 <= j < i ==> !p(Contents()[j])
      {
        if p(Get(i)) {
          return i;
        }
      }
      return NotFound;
    }

    /** `resizeUnsafeCapacity`: moves the contents to the front of a new
        buffer of `newCap` slots. */
    method Resize(newCap: nat)
      requires Valid() && count <= newCap
      modifies this
      ensures Valid() && fresh(buf) && Contents() == old(Contents())
      ensures cap == newCap && offset == 0 && minCap == old(minCap)
    {
      var b := new T[newCap];
      WriteSlots(b, 0, Contents());
      buf, cap, offset := b, newCap, 0;
    }

    /** `reserveCapacity`: records `m` as the minimum capacity and
        reallocates to exactly `m` slots whenever the contents are shorter
        than `m` (which may shrink the buffer). */
    method ReserveCapacity(m: nat)
      requires Valid()
      modifies this
      ensures Valid() && Contents() == old(Contents()) && minCap == m
      ensures old(count) < m ==> fresh(buf) && cap == m && offset == 0
      ensures m <= old(count) ==> buf == old(buf) && cap == old(cap) && offset == old(offset)
      ensures m <= Capacity()
    {
      minCap := m;
      if cap >= m && count < m {
        Resize(m);
      } else if cap < m {
        Resize(m);
      }
    }

    /** `append`: a full buffer (no slot after the last element) first grows
        to `Grown(count)` slots; otherwise the element goes into the next
        slot of the same storage. */
    method Append(x: T)
      requires Valid()
      modifies this, buf
      ensures Valid() && Contents() == old(Contents()) + [x] && minCap == old(minCap)
      ensures old(offset + count) == old(cap) ==>
                fresh(buf) && old(buf)[..] == old(buf[..]) && cap == Grown(old(count)) && offset == 0
      ensures old(offset + count) < old(cap) ==>
                buf == old(buf) && cap == old(cap) && offset == old(offset) &&
                buf[..] == old(buf[..])[offset + old(count) := x]
    {
      if offset + count == cap {
        Resize(Grown(count));
      }
      buf[offset + count] := x;
      count := count + 1;
    }

    /** Moves `Contents()[..i]`, then `n`, then `Contents()[j..]` to the
        front of a new buffer of `newCap` slots: the reallocating path of
        insert, interior removal, splice and range replacement. */
    method Rebuild(newCap: nat, i: nat, n: seq<T>, j: nat)
      requires Valid() && i <= j <= count && count - (j - i) + |n| <= newCap
      modifies this
      ensures Valid() && fresh(buf) && offset == 0 && cap == newCap && minCap == old(minCap)
      ensures Contents() == old(Contents())[..i] + n + old(Contents())[j..]
    {
      ghost var c := Contents();
      assert c[..i] == buf[offset..offset + i] && c[j..] == buf[offset + j..offset + count];
      var b := Assemble(newCap, buf[offset..offset + i], n, buf[offset + j..offset + count]);
      buf, cap, offset, count := b, newCap, 0, i + |n| + (count - j);
      assert Contents() == b[..count];
    }

    /** Writes `n` into the front slack so that it ends just before
        `offset`; only those slots of the storage change. */
    method FillSlack(n: seq<T>)
      requires Valid() && |n| <= offset
      modifies this, buf
      ensures Valid() && Contents() == n + old(Contents())
      ensures buf == old(buf) && cap == old(cap) && minCap == old(minCap)
      ensures offset == old(offset) - |n|
      ensures buf[..] == old(buf[..])[..offset] + n + old(buf[..])[offset + |n|..]
    {
      ghost var before := buf[..];
      var o := offset - |n|;
      WriteSlots(buf, o, n);
      WindowAfterWrite(before, o, n, o, offset + count);
      offset, count := o, count + |n|;
    }

    /** Writes `n` over the live elements from index `lo` on, in place;
        only those slots of the storage change. */
    method Overwrite(lo: nat, n: seq<T>)
      requires Valid() && lo + |n| <= count
      modifies buf
      ensures Valid() && Contents() == old(Contents())[..lo] + n + old(Contents())[lo + |n|..]
      ensures buf[..] == old(buf[..])[..offset + lo] + n + old(buf[..])[offset + lo + |n|..]
    {
      ghost var before := buf[..];
      WriteSlots(buf, offset + lo, n);
      WindowSplice(before, offset, count, lo, n);
    }

    /** The capacity check of `extend`: when `k` more elements would run
        past the end of the storage, it is reallocated to exactly
        `count + k` slots. */
    method MakeRoom(k: nat)
      requires Valid()
      modifies this
      ensures Valid() && Contents() == old(Contents()) && minCap == old(minCap)
      ensures offset + count + k <= cap
      ensures old(offset + count) + k > old(cap) ==>
                fresh(buf) && cap == old(count) + k && offset == 0
      ensures old(offset + count) + k <= old(cap) ==>
                buf == old(buf) && cap == old(cap) && offset == old(offset)
    {
      if offset + count + k > cap {
        Resize(count + k);
      }
    }

    /** The write step of `extend` as written: `n` goes into the slots from
        `offset` on, and `count` grows by `|n|`. */
    method WriteFront(n: seq<T>)
      requires Valid() && offset + count + |n| <= cap
      modifies this, buf
      ensures Valid() && count == old(count) + |n|
      ensures buf == old(buf) && cap == old(cap) && offset == old(offset) && minCap == old(minCap)
      ensures Contents()[..|n|] == n
      ensures |n| <= old(count) ==> Contents()[|n|..old(count)] == old(Contents())[|n|..]
      ensures buf[..] == old(buf[..])[..offset] + n + old(buf[..])[offset + |n|..]
    {
      ghost var before := buf[..];
      ghost var after := before[..offset] + n + before[offset + |n|..];
      WriteSlots(buf, offset, n);
      WindowFrontWrite(before, offset, count, n);
      count := count + |n|;
      assert Contents() == after[offset..offset + count];
    }

    /** The write step of `extend` as documented: `n` goes into the slots
        after the last element, and `count` grows by `|n|`. */
    method WriteBack(n: seq<T>)
      requires Valid() && offset + count + |n| <= cap
      modifies this, buf
      ensures Valid() && Contents() == old(Contents()) + n
      ensures buf == old(buf) && cap == old(cap) && offset == old(offset) && minCap == old(minCap)
      ensures buf[..] == old(buf[..])[..offset + old(count)] + n + old(buf[..])[offset + old(count) + |n|..]
    {
      ghost var before := buf[..];
      WriteSlots(buf, offset + count, n);
      WindowAfterWrite(before, offset + count, n, offset, offset + count + |n|);
      count := count + |n|;
    }

    /** `extend`, as written: the new elements are written from `offset`
        on, over the first elements, and `count` grows by their number. */
    method Extend(n: seq<T>)
      requires Valid()
      modifies this, buf
      ensures Valid() && count == old(count) + |n| && minCap == old(minCap)
      ensures Contents()[..|n|] == n
      ensures |n| <= old(count) ==> Contents()[|n|..old(count)] == old(Contents())[|n|..]
      ensures old(offset + count) + |n| > old(cap) ==>
                fresh(buf) && old(buf)[..] == old(buf[..]) && cap == old(count) + |n| && offset == 0
      ensures old(offset + count) + |n| <= old(cap) ==>
                buf == old(buf) && cap == old(cap) && offset == old(offset) &&
                buf[..] == old(buf[..])[..offset] + n + old(buf[..])[offset + |n|..]
    {
      MakeRoom(|n|);
      WriteFront(n);
    }

    /** `extend` as its documentation intends: the capacity rule of the
        source, with the elements written after the last one. */
    method AppendAll(n: seq<T>)
      requires Valid()
      modifies this, buf
      ensures Valid() && Contents() == old(Contents()) + n && minCap == old(minCap)
      ensures old(offset + count) + |n| > old(cap) ==>
                fresh(buf) && old(buf)[..] == old(buf[..]) && cap == old(count) + |n| && offset == 0
      ensures old(offset + count) + |n| <= old(cap) ==>
                buf == old(buf) && cap == old(cap) && offset == old(offset) &&
                buf[..] == old(buf[..])[..offset + old(count)] + n + old(buf[..])[offset + old(count) + |n|..]
    {
      MakeRoom(|n|);
      WriteBack(n);
    }

    /** `removeLast`, returning the last live element (the slot at
        `offset + count - 1`). */
    method RemoveLast() returns (x: T)
      requires Valid() && count > 0
      modifies this
      ensures Valid() && x == old(Contents())[old(count) - 1]
      ensures Contents() == old(Contents())[..old(count) - 1]
      ensures buf == old(buf) && offset == old(offset) && cap == old(cap) && minCap == old(minCap)
    {
      count := count - 1;
      x := buf[offset + count];
    }

    /** `removeFirst`: the vacated slot becomes front slack. */
    method RemoveFirst() returns (x: T)
      requires Valid() && count > 0
      modifies this
      ensures Valid() && x == old(Contents())[0] && Contents() == old(Contents())[1..]
      ensures offset == old(offset) + 1
      ensures buf == old(buf) && cap == old(cap) && minCap == old(minCap)
    {
      count := count - 1;
      x := buf[offset];
      offset := offset + 1;
    }

    /** `insert(_:atIndex:)`: at index 0 with front slack the element goes
        into the slot before `offset`; otherwise prefix, element and suffix
        are moved into a new buffer, grown only when the old one was full. */
    method Insert(x: T, i: nat)
      requires Valid() && i <= count
      modifies this, buf
      ensures Valid() && Contents() == old(Contents())[..i] + [x] + old(Contents())[i..]
      ensures minCap == old(minCap)
      ensures i == 0 && old(offset) > 0 ==>
                buf == old(buf) && cap == old(cap) && offset == old(offset) - 1 &&
                buf[..] == old(buf[..])[offset := x]
      ensures !(i == 0 && old(offset) > 0) ==>
                fresh(buf) && old(buf)[..] == old(buf[..]) && offset == 0 &&
                cap == (if old(offset + count) == old(cap) then Grown(old(count)) else old(cap))
    {
      ghost var c := Contents();
      if i == 0 && offset > 0 {
        ghost var before := buf[..];
        FillSlack([x]);
        assert c[..i] == [] && c[i..] == c;
        assert buf[..] == before[offset := x];
        return;
      }
      var newCap := if offset + count == cap then Grown(count) else cap;
      Rebuild(newCap, i, [x], i);
    }

    /** `removeAtIndex`: index 0 and the last index use `RemoveFirst` and
        `RemoveLast`; an interior index moves prefix and suffix into a new
        buffer of the same capacity. */
    method RemoveAt(i: nat) returns (x: T)
      requires Valid() && i < count
      modifies this
      ensures Valid() && x == old(Contents())[i]
      ensures Contents() == old(Contents())[..i] + old(Contents())[i + 1..]
      ensures cap == old(cap) && minCap == old(minCap)
      ensures i == 0 ==> buf == old(buf) && offset == old(offset) + 1
      ensures 0 < i == old(count) - 1 ==> buf == old(buf) && offset == old(offset)
      ensures 0 < i < old(count) - 1 ==> fresh(buf) && offset == 0
    {
      ghost var c := Contents();
      if i == 0 {
        x := RemoveFirst();
        assert c[..i] + c[i + 1..] == c[1..];
        return;
      } else if i == count - 1 {
        x := RemoveLast();
        assert c[..i] + c[i + 1..] == c[..i];
        return;
      }
      x := buf[offset + i];
      Rebuild(cap, i, [], i + 1);
      assert c[..i] + [] + c[i + 1..] == c[..i] + c[i + 1..];
    }

    /** `removeAll`: empties the array and resets `offset`; unless the
        capacity is kept, the storage is replaced by `minCap` fresh slots. */
    method RemoveAll(keepCapacity: bool)
      requires Valid()
      modifies this
      ensures Valid() && Contents() == [] && offset == 0 && minCap == old(minCap)
      ensures keepCapacity ==> buf == old(buf) && cap == old(cap)
      ensures !keepCapacity ==> fresh(buf) && cap == old(minCap)
    {
      if !keepCapacity {
        cap := minCap;
        buf := new T[cap];
      }
      offset, count := 0, 0;
    }

    /** `replaceRange(_:with:)`, also the sub-range setter: a replacement of
        the same length overwrites the slots in place; any other length moves
        prefix, replacement and suffix into a buffer of exactly the new size. */
    method ReplaceRange(lo: nat, hi: nat, n: seq<T>)
      requires Valid() && lo <= hi <= count
      modifies this, buf
      ensures Valid() && Contents() == old(Contents())[..lo] + n + old(Contents())[hi..]
      ensures minCap == old(minCap)
      ensures |n| == hi - lo ==>
                buf == old(buf) && cap == old(cap) && offset == old(offset) &&
                buf[..] == old(buf[..])[..offset + lo] + n + old(buf[..])[offset + hi..]
      ensures |n| != hi - lo ==> fresh(buf) && old(buf)[..] == old(buf[..]) && offset == 0 && cap == count
    {
      if |n| == hi - lo {
        Overwrite(lo, n);
      } else {
        Rebuild(count + |n| - (hi - lo), lo, n, hi);
      }
    }

    /** `removeRange`: `ReplaceRange` with no elements; an empty range
        changes nothing. */
    method RemoveRange(lo: nat, hi: nat)
      requires Valid() && lo <= hi <= count
      modifies this, buf
      ensures Valid() && Contents() == old(Contents())[..lo] + old(Contents())[hi..]
      ensures lo == hi ==> buf == old(buf) && cap == old(cap) && offset == old(offset) &&
                           buf[..] == old(buf[..])
      ensures lo < hi ==> fresh(buf) && old(buf)[..] == old(buf[..]) && offset == 0 && cap == count
    {
      ReplaceRange(lo, hi, []);
    }

    /** `splice(_:atIndex:)`. At index 0 with more front slack than new
        elements, they are written into the slack before `offset`;
        otherwise prefix, new elements and suffix are moved into a new
        buffer, enlarged to `count + |n|` only when they would not fit. */
    method Splice(n: seq<T>, i: nat)
      requires Valid() && i <= count
      modifies this, buf
      ensures Valid() && Contents() == old(Contents())[..i] + n + old(Contents())[i..]
      ensures minCap == old(minCap)
      ensures i == 0 && old(offset) > |n| ==>
                buf == old(buf) && cap == old(cap) && offset == old(offset) - |n| &&
                buf[..] == old(buf[..])[..offset] + n + old(buf[..])[old(offset)..]
      ensures !(i == 0 && old(offset) > |n|) ==>
                fresh(buf) && old(buf)[..] == old(buf[..]) && offset == 0 &&
                cap == (if old(offset + count) + |n| > old(cap) then old(count) + |n| else old(cap))
    {
      ghost var c := Contents();
      if i == 0 && offset > |n| {
        FillSlack(n);
        assert c[..i] == [] && c[i..] == c;
        return;
      }
      var newCap := if offset + count + |n| > cap then count + |n| else cap;
      Rebuild(newCap, i, n, i);
    }

    /** Sub-range getter: a new array over the same storage, starting
        `lo` slots after `offset`; nothing is copied. The source does not
        check `hi` against `count`, only the storage bounds matter. */
    method Slice(lo: nat, hi: nat) returns (s: OArray<T>)
      requires Valid() && lo <= hi && offset + hi <= cap
      ensures fresh(s) && s.Valid() && s.buf == buf
      ensures s.offset == offset + lo && s.count == hi - lo && s.cap == cap && s.minCap == offset + hi
      ensures hi <= count ==> s.Contents() == Contents()[lo..hi]
    {
      s := new OArray.View(buf, offset + lo, offset + hi, cap);
      if hi <= count {
        assert Contents()[lo..hi] == buf[offset + lo..offset + hi];
      }
    }

    /** `generate`, as written: the generator covers storage slots
        `0 ..< count`, ignoring `offset`. */
    method Generate() returns (g: OArrayGenerator<T>)
      requires Valid()
      ensures fresh(g) && g.Valid() && g.storage == buf && g.Remaining() == buf[..count]
      ensures g.start == 0 && g.length == count && g.position == 0
      ensures offset == 0 ==> g.Remaining() == Contents()
    {
      g := new OArrayGenerator(buf, 0, count);
    }

    /** `generate` as intended: the generator covers the live slots. */
    method GenerateLive() returns (g: OArrayGenerator<T>)
      requires Valid()
      ensures fresh(g) && g.Valid() && g.storage == buf && g.Remaining() == Contents()
      ensures g.start == offset && g.length == count && g.position == 0
    {
      g := new OArrayGenerator(buf, offset, offset + count);
    }
  }

  /** `OArrayGenerator`: a cursor over `storage[start ..< start + length]`. */
  class OArrayGenerator<T> {
    const storage: array<T>
    const start: nat
    const length: nat
    var position: nat

    ghost predicate Valid()
      reads this
    {
      start + length <= storage.Length && position <= length
    }

    /** What the generator has still to yield. */
    ghost function Remaining(): seq<T>
      reads this, storage
      requires Valid()
    {
      storage[start + position..start + length]
    }

    constructor (pointer: array<T>, lo: nat, hi: nat)
      requires lo <= hi <= pointer.Length
      ensures Valid() && storage == pointer && start == lo && length == hi - lo && position == 0
      ensures Remaining() == pointer[lo..hi]
    {
      storage, start, length, position := pointer, lo, hi - lo, 0;
    }

    method Next() returns (r: Option<T>)
      requires Valid()
      modifies this
      ensures Valid()
      ensures old(Remaining()) == [] ==> r == None && position == old(position)
      ensures old(Remaining()) != [] ==>
                r == Some(old(Remaining())[0]) && Remaining() == old(Remaining())[1..]
      ensures old(position) < length ==>
                r == Some(storage[start + old(position)]) && position == old(position) + 1
    {
      if position >= length {
        return None;
      }
      r := Some(storage[start + position]);
      position := position + 1;
    }
  }

  /** `for x in a`: what iterating an array through `Generate` yields,
      the first `count` storage slots, which are the contents only when
      `offset` is 0. */
  method Iterate<T(0)>(a: OArray<T>) returns (xs: seq<T>)
    requires a.Valid()
    ensures xs == a.buf[..a.count]
    ensures a.offset == 0 ==> xs == a.Contents()
  {
    var g := a.Generate();
    xs := [];
    while true
      invariant g.Valid() && fresh(g) && g.storage == a.buf && g.start == 0 && g.length == a.count
      invariant xs == a.buf[..g.position]
      decreases g.length - g.position
    {
      var r := g.Next();
      if r.None? {
        break;
      }
      xs := xs + [r.value];
    }
  }

  /** Iteration through `GenerateLive`: the contents, in order, whatever
      the front slack. */
  method IterateLive<T(0)>(a: OArray<T>) returns (xs: seq<T>)
    requires a.Valid()
    ensures xs == a.Contents()
  {
    var g := a.GenerateLive();
    xs := [];
    while true
      invariant g.Valid() && fresh(g) && g.storage == a.buf && g.start == a.offset && g.length == a.count
      invariant xs == a.buf[a.offset..a.offset + g.position]
      decreases g.length - g.position
    {
      var r := g.Next();
      if r.None? {
        break;
      }
      xs := xs + [r.value];
    }
  }

  /** `+`: appends to the left operand and returns it. */
  method Plus<T(0)>(lhs: OArray<T>, x: T) returns (r: OArray<T>)
    requires lhs.Valid()
    modifies lhs, lhs.buf
    ensures r == lhs && r.Valid() && r.Contents() == old(lhs.Contents()) + [x]
    ensures old(lhs.offset + lhs.count) == old(lhs.cap) ==>
              fresh(r.buf) && old(lhs.buf)[..] == old(lhs.buf[..]) && r.offset == 0
    ensures old(lhs.offset + lhs.count) < old(lhs.cap) ==>
              r.buf == old(lhs.buf) && r.offset == old(lhs.offset) &&
              r.buf[..] == old(lhs.buf[..])[r.offset + old(lhs.count) := x]
  {
    lhs.Append(x);
    r := lhs;
  }

  /** `view` was obtained from `parent` by slicing at `lo` and neither has
      reallocated since: both still address the same storage. */
  ghost predicate SharesStorage<T(0)>(parent: OArray<T>, view: OArray<T>, lo: nat)
    reads parent, view
  {
    parent.buf == view.buf && view.offset == parent.offset + lo &&
    lo + view.count <= parent.count
  }

  /** While storage is shared, the view's contents are the parent's
      sub-range, whatever was written through either of them. */
  lemma ViewAgrees<T(0)>(parent: OArray<T>, view: OArray<T>, lo: nat)
    requires parent.Valid() && view.Valid() && SharesStorage(parent, view, lo)
    ensures view.Contents() == parent.Contents()[lo..lo + view.count]
  {
  }

  /** A write through a slice is visible in the parent at the shifted index. */
  method WriteThroughSlice<T(0)>(parent: OArray<T>, lo: nat, hi: nat, j: nat, x: T)
    returns (view: OArray<T>)
    requires parent.Valid() && lo <= hi <= parent.count && j < hi - lo
    modifies parent.buf
    ensures view.Valid() && SharesStorage(parent, view, lo)
    ensures parent.Contents() == old(parent.Contents())[lo + j := x]
    ensures view.Contents() == parent.Contents()[lo..hi]
  {
    view := parent.Slice(lo, hi);
    view.Set(j, x);
  }

  /** Two slices of `[1, 2, 3]` share its storage. Removing the first
      slice's element and inserting 99 into the slack it leaves writes only
      that slot, so the second slice still holds `[2, 3]` and the parent
      now holds `[99, 2, 3]`. */
  method InsertKeepsSiblingSlice() returns (first: seq<int>, second: seq<int>, whole: seq<int>)
    ensures first == [99] && second == [2, 3] && whole == [99, 2, 3]
  {
    var p := new OArray.Literal([1, 2, 3]);
    var a := p.Slice(0, 1);
    var b := p.Slice(1, 3);
    var _ := a.RemoveFirst();
    a.Insert(99, 0);
    first, second, whole := a.Contents(), b.Contents(), p.Contents();
  }

  /** Reallocation moves only the array that grows: appending to the last
      slice of `[1, 2, 3]` gives that slice a new buffer and leaves the
      parent as it was, and an interior insert into the parent leaves a
      slice of its first two elements as it was. */
  method ReallocationKeepsSharers() returns (parent: seq<int>, grown: seq<int>, prefix: seq<int>)
    ensures parent == [1, 2, 3] && grown == [3, 9] && prefix == [1, 2]
  {
    var p := new OArray.Literal([1, 2, 3]);
    var s := p.Slice(2, 3);
    s.Append(9);
    parent, grown := p.Contents(), s.Contents();
    var t := p.Slice(0, 2);
    p.Insert(7, 1);
    prefix := t.Contents();
  }

  /** The element `removeLast` returns as written (line 291 indexes
      `count - 1` from the start of the storage, without `offset`); it is
      the last live element when `offset` is 0. */
  function RemoveLastAsWritten<T>(storage: seq<T>, offset: nat, count: nat): (x: T)
    requires 0 < count && offset + count <= |storage|
    ensures offset == 0 ==> x == storage[offset..offset + count][count - 1]
  {
    storage[count - 1]
  }

  /** With one slot of front slack, `removeLast` as written returns the
      second-to-last element instead of the last. */
  lemma RemoveLastAsWrittenMisses()
    ensures RemoveLastAsWritten([10, 20, 30], 1, 2) == 20
    ensures [10, 20, 30][1..3][1] == 30
  {
  }

  /** Outcome of the front fast path of `splice` as written. */
  datatype FrontPath = Trapped | Finished(offset: int, count: int)

  /** The front fast path of `splice` as written: `j` starts at the last
      element's index and is incremented, so with elements it walks off the
      end of `n` and traps, and without elements it still bumps `count`. */
  function SpliceFrontAsWritten<T>(n: seq<T>, offset: int, count: int): (r: FrontPath)
    ensures r.Finished? ==> n == [] && r == Finished(offset, count + 1)
  {
    FrontLoop(n, |n| - 1, offset, count)
  }

  /** That loop from index `j` on, with `offset` dropping by one per
      element written. It finishes only when `j` starts below 0, with
      `offset` untouched and `count` grown by one. */
  function FrontLoop<T>(n: seq<T>, j: int, offset: int, count: int): (r: FrontPath)
    ensures r.Finished? ==> j < 0 && r == Finished(offset, count + 1)
    decreases |n| - j
  {
    if j < 0 then Finished(offset, count + 1)
    else if j >= |n| then Trapped
    else FrontLoop(n, j + 1, offset - 1, count)
  }

  /** The as-written front path never produces the spliced contents: an
      empty splice grows `count` by one, any other traps. */
  lemma {:induction false} SpliceFrontAsWrittenFails<T>(n: seq<T>, offset: int, count: int)
    ensures n == [] ==> SpliceFrontAsWritten(n, offset, count) == Finished(offset, count + 1)
    ensures n != [] ==> SpliceFrontAsWritten(n, offset, count) == Trapped
  {
    if n != [] {
      FrontLoopTraps(n, |n| - 1, offset, count);
    }
  }

  lemma {:induction false} FrontLoopTraps<T>(n: seq<T>, j: int, offset: int, count: int)
    requires 0 <= j
    ensures FrontLoop(n, j, offset, count) == Trapped
    decreases |n| - j
  {
    if j < |n| {
      FrontLoopTraps(n, j + 1, offset - 1, count);
    }
  }

  /** `extend` as written overwrites the front: extending `[1, 2, 3]` by
      `[9]` does not give `[1, 2, 3, 9]`. */
  method ExtendOverwritesFront() returns (c: seq<int>)
    ensures |c| == 4 && c[..3] == [9, 2, 3] && c != [1, 2, 3, 9]
  {
    var a := new OArray.Literal([1, 2, 3]);
    ghost var before := a.Contents();
    assert before[1..] == [2, 3];
    a.Extend([9]);
    c := a.Contents();
    assert c[..1] == [9] && c[1..3] == [2, 3];
    assert c[..3] == c[..1] + c[1..3];
    assert c[0] == 9;
  }

  /** Iteration as written after a front removal: `[1, 2, 3]` minus its
      first element iterates as `[1, 2]`, not as its contents `[2, 3]`. */
  method IterateAfterRemoveFirst() returns (xs: seq<int>, c: seq<int>)
    ensures c == [2, 3] && xs == [1, 2]
  {
    var a := new OArray.Literal([1, 2, 3]);
    var _ := a.RemoveFirst();
    c := a.Contents();
    xs := Iterate(a);
  }

  /** `[10, 20, 30]` after `removeFirst()` holds `[20, 30]`. Removing its
      last element (index 1) as written returns 20, since `removeAtIndex`
      at the last index calls `removeLast`; the model's `RemoveAt` returns
      30. */
  method RemoveAtLastAfterRemoveFirst() returns (asWritten: int, removed: int, c: seq<int>)
    ensures asWritten == 20 && removed == 30 && c == [20]
  {
    var a := new OArray.Literal([10, 20, 30]);
    var _ := a.RemoveFirst();
    asWritten := RemoveLastAsWritten(a.buf[..], a.offset, a.count);
    removed := a.RemoveAt(1);
    c := a.Contents();
  }
}

=== FILE: orderedmap.dfy ===
/** The insertion-ordered dictionary `OrderedMap`: three position-aligned
    sequences, a buffer of key hashes (with the same offset, count and
    capacity discipline as the growable array), the keys and the values.
    Lookup compares hashes only, so two keys with the same hash are found
    at the first position holding that hash. */
module Maps {
  import opened Common
  import opened Storage

  /** Capacity and minimum capacity of a map made by `init()`. */
  const DefaultCapacity: nat := 10

  /** `MapIndex`: a position in a map, an `Int` underneath. */
  datatype MapIndex = MapIndex(rawValue: int)
  {
    /** `successor()`: the next position, strictly after this one. */
    function Successor(): (r: MapIndex)
      ensures Less(this, r) && !LessEq(r, this)
      ensures forall q :: Less(this, q) <==> LessEq(r, q)
    {
      MapIndex(rawValue + 1)
    }
  }

  /** `<` on positions: a strict order, never relating a position to itself. */
  predicate Less(a: MapIndex, b: MapIndex): (r: bool)
    ensures r ==> a != b && !(b.rawValue < a.rawValue)
  {
    a.rawValue < b.rawValue
  }

  /** `<=` on positions: `<` or `==`. */
  predicate LessEq(a: MapIndex, b: MapIndex): (r: bool)
    ensures r <==> Less(a, b) || a == b
  {
    a.rawValue <= b.rawValue
  }

  /** `>` on positions: `<` with the operands swapped. */
  predicate Greater(a: MapIndex, b: MapIndex): (r: bool)
    ensures r <==> Less(b, a)
  {
    a.rawValue > b.rawValue
  }

  /** `>=` on positions: `<=` with the operands swapped. */
  predicate GreaterEq(a: MapIndex, b: MapIndex): (r: bool)
    ensures r <==> LessEq(b, a)
  {
    a.rawValue >= b.rawValue
  }

  /** The operators make positions a total order, as `Comparable` requires:
      exactly one of `<`, `==` and `>` holds, `<` is transitive, and `>=`
      is the negation of `<`. */
  lemma PositionOrder(a: MapIndex, b: MapIndex, c: MapIndex)
    ensures Less(a, b) || a == b || Greater(a, b)
    ensures !(Less(a, b) && Greater(a, b))
    ensures Less(a, b) && Less(b, c) ==> Less(a, c)
    ensures GreaterEq(a, b) <==> !Less(a, b)
  {
  }

  class OrderedMap<K, V> {
    /** `hashValue` of the key type, left uninterpreted; distinct keys may
        share a hash. */
    const hash: K -> int
    /** The hash buffer (`_pointer`): the hash of the key at position `i`
        sits in slot `offset + i`. */
    var hashes: array<int>
    var keys: seq<K>
    var vals: seq<V>
    var count: nat
    var offset: nat
    var cap: nat
    var minCap: nat

    /** What the buffer code itself relies on: the live hashes fit the
        buffer, and the key and value lists are equally long and hold at
        least `count` entries. */
    ghost predicate Sound()
      reads this
    {
      offset + count <= cap && cap == hashes.Length && count <= |keys| && |keys| == |vals|
    }

    /** The alignment invariant: exactly `count` keys and values, and the
        live hashes are the hashes of the keys, position by position. */
    ghost predicate Valid()
      reads this, hashes
    {
      Sound() && |keys| == count && Aligned(Hashes(), hash, keys)
    }

    /** The live hashes, `count` slots from `offset`. */
    function Hashes(): seq<int>
      reads this, hashes
      requires Sound()
    {
      hashes[offset..offset + count]
    }

    /** The pairs in insertion order. */
    function Pairs(): seq<(K, V)>
      reads this, hashes
      requires Valid()
    {
      Zip(keys, vals)
    }

    /** Where lookup finds `k`: the first position whose hash is `k`'s. */
    ghost function Position(k: K): Option<nat>
      reads this, hashes
      requires Sound()
    {
      FirstEqual(Hashes(), hash(k))
    }

    /** What lookup of `k` yields: the value list at `Position(k)`. */
    ghost function Lookup(k: K): Option<V>
      reads this, hashes
      requires Sound()
    {
      match Position(k)
      case None => None
      case Some(i) => Some(vals[i])
    }

    /** Lookup finds the first key whose hash equals `k`'s: the key itself
        when no earlier key collides with it. */
    lemma PositionIsFirstMatchingKey(k: K)
      requires Valid()
      ensures Position(k) == FirstWhere(x => hash(x) == hash(k), keys)
      ensures Position(k).Some? ==> hash(keys[Position(k).value]) == hash(k)
    {
      FirstEqualAligned(Hashes(), hash, keys, hash(k));
    }

    /** `init()`: empty, room for ten pairs. */
    constructor (hash: K -> int)
      ensures Valid() && fresh(hashes) && this.hash == hash
      ensures keys == [] && vals == [] && count == 0 && offset == 0
      ensures cap == DefaultCapacity && minCap == DefaultCapacity
    {
      this.hash := hash;
      hashes := new int[DefaultCapacity];
      keys, vals := [], [];
      count, offset, cap, minCap := 0, 0, DefaultCapacity, DefaultCapacity;
    }

    /** `init(minimumCapacity:)`: empty, room for `m` pairs. */
    constructor WithMinimumCapacity(hash: K -> int, m: nat)
      ensures Valid() && fresh(hashes) && this.hash == hash
      ensures keys == [] && vals == [] && count == 0 && offset == 0
      ensures cap == m && minCap == m
    {
      this.hash := hash;
      hashes := new int[m];
      keys, vals := [], [];
      count, offset, cap, minCap := 0, 0, m, m;
    }

    /** `init(dictionaryLiteral:)`: the pairs in the order given, with
        capacity and minimum capacity equal to their number. Repeated keys
        are all kept. */
    constructor Literal(hash: K -> int, elements: seq<(K, V)>)
      ensures Valid() && fresh(hashes) && this.hash == hash
      ensures Pairs() == elements
      ensures offset == 0 && cap == |elements| && minCap == |elements|
    {
      this.hash := hash;
      hashes := new int[|elements|];
      keys, vals := [], [];
      count, offset, cap, minCap := 0, 0, |elements|, |elements|;
      new;
      for i := 0 to |elements|
        invariant Sound() && fresh(hashes) && count == 0 && offset == 0
        invariant cap == |elements| && minCap == |elements|
        invariant |keys| == i
        invariant forall j :: 0 <= j < i ==> hashes[j] == hash(keys[j])
        invariant forall j :: 0 <= j < i ==> (keys[j], vals[j]) == elements[j]
      {
        hashes[i] := hash(elements[i].0);
        keys := keys + [elements[i].0];
        vals := vals + [elements[i].1];
      }
      count := |elements|;
      assert forall j :: 0 <= j < count ==> Hashes()[j] == hashes[j];
      assert Pairs() == elements;
    }

    /** `indexForKey`: scans the live hashes for the first one equal to the
        key's hash. */
    method IndexForKey(k: K) returns (r: Option<MapIndex>)
      requires Sound()
      ensures r == match Position(k)
                   case None => None
                   case Some(i) => Some(MapIndex(i))
    {
      var h := hash(k);
      ghost var hs := Hashes();
      var i := 0;
      while i < count
        invariant i <= count
        invariant h !in hs[..i]
      {
        if hashes[offset + i] == h {
          assert hs[i] == h;
          FirstEqualAt(hs, h, i);
          return Some(MapIndex(i));
        }
        assert hs[..i + 1] == hs[..i] + [hs[i]];
        i := i + 1;
      }
      assert hs[..i] == hs;
      return None;
    }

    /** The key subscript getter: the value at the position `indexForKey`
        finds, or nothing. */
    method Get(k: K) returns (r: Option<V>)
      requires Sound()
      ensures r == Lookup(k)
      ensures r.Some? ==> exists i :: 0 <= i < count && hashes[offset + i] == hash(k) && vals[i] == r.value
    {
      var p := IndexForKey(k);
      if p.None? {
        return None;
      }
      var i := p.value.rawValue;
      r := Some(vals[i]);
      assert hashes[offset + i] == Hashes()[i];
    }

    /** The position subscript getter: the key and value at `p`, and the
        key's hash is the one stored for that position. */
    function At(p: MapIndex): (r: (K, V))
      reads this, hashes
      requires Valid() && 0 <= p.rawValue < count
      ensures r == Pairs()[p.rawValue]
      ensures hash(r.0) == Hashes()[p.rawValue]
    {
      (keys[p.rawValue], vals[p.rawValue])
    }

    /** `_resizeUnsafeCapacity` followed by `_releaseBuffer`: the live
        hashes move to the front of a new buffer of `newCap` slots. */
    method Resize(newCap: nat)
      requires Sound() && count <= newCap
      modifies this
      ensures Sound() && fresh(hashes) && Hashes() == old(Hashes())
      ensures keys == old(keys) && vals == old(vals) && count == old(count)
      ensures cap == newCap && offset == 0 && minCap == old(minCap)
      ensures old(Valid()) ==> Valid()
    {
      var b := new int[newCap];
      WriteSlots(b, 0, Hashes());
      hashes, cap, offset := b, newCap, 0;
    }

    /** `putValue`: appends the hash, key and value as a new last position,
        without looking for the key first, and returns the old count. A
        full buffer grows to `Grown(count)` slots first. */
    method PutValue(v: V, k: K) returns (idx: MapIndex)
      requires Sound()
      modifies this, hashes
      ensures Sound() && minCap == old(minCap)
      ensures keys == old(keys) + [k] && vals == old(vals) + [v] && count == old(count) + 1
      ensures Hashes() == old(Hashes()) + [hash(k)]
      ensures idx == MapIndex(old(count))
      ensures old(Valid()) ==> Valid()
      ensures Position(k) == if old(Position(k)).Some? then old(Position(k)) else Some(old(count))
      ensures old(Valid()) && old(Position(k)).None? ==> Lookup(k) == Some(v)
      ensures old(offset + count) == old(cap) ==>
                fresh(hashes) && cap == Grown(old(count)) && offset == 0
      ensures old(offset + count) < old(cap) ==>
                hashes == old(hashes) && cap == old(cap) && offset == old(offset)
    {
      if count + offset == cap {
        Resize(Grown(count));
      }
      idx := AppendSlot(v, k);
    }

    /** The write step of `putValue`, once the buffer has room. */
    method AppendSlot(v: V, k: K) returns (idx: MapIndex)
      requires Sound() && offset + count < cap
      modifies this, hashes
      ensures Sound() && minCap == old(minCap)
      ensures hashes == old(hashes) && cap == old(cap) && offset == old(offset)
      ensures keys == old(keys) + [k] && vals == old(vals) + [v] && count == old(count) + 1
      ensures Hashes() == old(Hashes()) + [hash(k)]
      ensures idx == MapIndex(old(count))
      ensures old(Valid()) ==> Valid()
      ensures Position(k) == if old(Position(k)).Some? then old(Position(k)) else Some(old(count))
    {
      ghost var hs := Hashes();
      hashes[offset + count] := hash(k);
      keys := keys + [k];
      vals := vals + [v];
      idx := MapIndex(count);
      count := count + 1;
      assert Hashes() == hs + [hash(k)];
      FirstEqualSnoc(hs, hash(k), hash(k));
    }

    /** The position subscript setter. At `count` it appends through
        `PutValue`; below `count` it overwrites the hash, key and value of
        that one position. */
    method SetAt(p: MapIndex, kv: (K, V))
      requires Valid() && 0 <= p.rawValue <= count
      modifies this, hashes
      ensures Valid() && minCap == old(minCap)
      ensures p.rawValue == old(count) ==>
                keys == old(keys) + [kv.0] && vals == old(vals) + [kv.1] &&
                (old(offset + count) == old(cap) ==>
                   fresh(hashes) && cap == Grown(old(count)) && offset == 0) &&
                (old(offset + count) < old(cap) ==>
                   hashes == old(hashes) && cap == old(cap) && offset == old(offset))
      ensures p.rawValue < old(count) ==>
                keys == old(keys)[p.rawValue := kv.0] && vals == old(vals)[p.rawValue := kv.1] &&
                hashes == old(hashes) && cap == old(cap) && offset == old(offset) && count == old(count)
      ensures p.rawValue < old(count) ==> Pairs() == old(Pairs())[p.rawValue := kv]
    {
      var i := p.rawValue;
      if i == count {
        var _ := PutValue(kv.1, kv.0);
        return;
      }
      hashes[offset + i] := hash(kv.0);
      keys := keys[i := kv.0];
      vals := vals[i := kv.1];
      assert Aligned(Hashes(), hash, keys);
    }

    /** `updateValue`: overwrites the value of the key's first position
        and returns the old one, or appends as `PutValue` does and returns
        nothing. Either way lookup then yields the new value. */
    method UpdateValue(v: V, k: K) returns (r: Option<V>)
      requires Valid()
      modifies this, hashes
      ensures Valid() && r == old(Lookup(k)) && Lookup(k) == Some(v) && minCap == old(minCap)
      ensures old(Position(k)).Some? ==>
                keys == old(keys) && vals == old(vals)[old(Position(k)).value := v] &&
                hashes == old(hashes) && cap == old(cap) && offset == old(offset) && count == old(count)
      ensures old(Position(k)).None? ==>
                keys == old(keys) + [k] && vals == old(vals) + [v] &&
                (old(offset + count) == old(cap) ==>
                   fresh(hashes) && cap == Grown(old(count)) && offset == 0) &&
                (old(offset + count) < old(cap) ==>
                   hashes == old(hashes) && cap == old(cap) && offset == old(offset))
    {
      var p := IndexForKey(k);
      if p.Some? {
        var i := p.value.rawValue;
        r := Some(vals[i]);
        vals := vals[i := v];
        return;
      }
      var _ := PutValue(v, k);
      r := None;
    }

    /** `removeLast`: drops the last position; the hash buffer is left as
        it is. */
    method RemoveLast() returns (r: (K, V))
      requires Valid() && count > 0
      modifies this
      ensures Valid() && r == old(Pairs())[old(count) - 1]
      ensures keys == old(keys)[..old(count) - 1] && vals == old(vals)[..old(count) - 1]
      ensures count == old(count) - 1 && hashes == old(hashes) && offset == old(offset)
      ensures cap == old(cap) && minCap == old(minCap)
    {
      count := count - 1;
      r := (keys[count], vals[count]);
      keys, vals := keys[..count], vals[..count];
    }

    /** `removeFirst`: drops the first position; its hash slot becomes
        front slack. */
    method RemoveFirst() returns (r: (K, V))
      requires Valid() && count > 0
      modifies this
      ensures Valid() && r == old(Pairs())[0]
      ensures keys == old(keys)[1..] && vals == old(vals)[1..]
      ensures count == old(count) - 1 && hashes == old(hashes) && offset == old(offset) + 1
      ensures cap == old(cap) && minCap == old(minCap)
    {
      count := count - 1;
      r := (keys[0], vals[0]);
      keys, vals := keys[1..], vals[1..];
      offset := offset + 1;
    }

    /** `removeAtIndex`: the first and last positions go through
        `RemoveFirst` and `RemoveLast`; an interior position moves the other
        hashes into a new buffer of the same capacity. Hashes, keys and
        values lose that one position together. */
    method RemoveAt(p: MapIndex) returns (r: (K, V))
      requires Valid() && 0 <= p.rawValue < count
      modifies this, hashes
      ensures Valid() && r == old(Pairs())[p.rawValue]
      ensures keys == old(keys)[..p.rawValue] + old(keys)[p.rawValue + 1..]
      ensures vals == old(vals)[..p.rawValue] + old(vals)[p.rawValue + 1..]
      ensures Hashes() == old(Hashes())[..p.rawValue] + old(Hashes())[p.rawValue + 1..]
      ensures count == old(count) - 1 && cap == old(cap) && minCap == old(minCap)
      ensures p.rawValue == 0 ==> hashes == old(hashes) && offset == old(offset) + 1
      ensures 0 < p.rawValue == old(count) - 1 ==> hashes == old(hashes) && offset == old(offset)
      ensures 0 < p.rawValue < old(count) - 1 ==> fresh(hashes) && offset == 0
    {
      var i := p.rawValue;
      ghost var hs := Hashes();
      ghost var ks := keys;
      ghost var vs := vals;
      if i == 0 {
        r := RemoveFirst();
        assert hs[..i] + hs[i + 1..] == hs[1..];
        assert ks[..i] + ks[i + 1..] == ks[1..];
        assert vs[..i] + vs[i + 1..] == vs[1..];
        return;
      } else if i == count - 1 {
        r := RemoveLast();
        assert hs[..i] + hs[i + 1..] == hs[..i];
        assert ks[..i] + ks[i + 1..] == ks[..i];
        assert vs[..i] + vs[i + 1..] == vs[..i];
        return;
      }
      r := (keys[i], vals[i]);
      RemoveInterior(i);
    }

    /** The interior path of `removeAtIndex`. */
    method RemoveInterior(i: nat)
      requires Valid() && 0 < i < count - 1
      modifies this
      ensures Valid() && fresh(hashes) && offset == 0
      ensures keys == old(keys)[..i] + old(keys)[i + 1..]
      ensures vals == old(vals)[..i] + old(vals)[i + 1..]
      ensures Hashes() == old(Hashes())[..i] + old(Hashes())[i + 1..]
      ensures count == old(count) - 1 && cap == old(cap) && minCap == old(minCap)
    {
      ghost var hs := Hashes();
      assert hs[..i] == hashes[offset..offset + i];
      assert hs[i + 1..] == hashes[offset + i + 1..offset + count];
      var b := Assemble(cap, hashes[offset..offset + i], [], hashes[offset + i + 1..offset + count]);
      hashes, offset := b, 0;
      count := count - 1;
      keys := keys[..i] + keys[i + 1..];
      vals := vals[..i] + vals[i + 1..];
      assert Hashes() == hs[..i] + [] + hs[i + 1..];
    }

    /** `popFirst`: nothing on an empty map, otherwise `RemoveAt(0)`. */
    method PopFirst() returns (r: Option<(K, V)>)
      requires Valid()
      modifies this, hashes
      ensures Valid()
      ensures old(count) == 0 ==>
                r == None && keys == old(keys) && vals == old(vals) && count == old(count) &&
                hashes == old(hashes) && offset == old(offset) && cap == old(cap) && minCap == old(minCap)
      ensures old(count) > 0 ==>
                r == Some(old(Pairs())[0]) && keys == old(keys)[1..] && vals == old(vals)[1..] &&
                hashes == old(hashes) && offset == old(offset) + 1 && cap == old(cap) && minCap == old(minCap)
    {
      if count == 0 {
        return None;
      }
      var kv := RemoveAt(MapIndex(0));
      return Some(kv);
    }

    /** `removeValueForKey`: removes the key's first position and returns
        its value, or changes nothing and returns nothing when no position
        holds the key's hash. The key is then gone from lookup exactly when
        no later key shares its hash. */
    method RemoveValueForKey(k: K) returns (r: Option<V>)
      requires Valid()
      modifies this, hashes
      ensures Valid() && r == old(Lookup(k)) && minCap == old(minCap) && cap == old(cap)
      ensures old(Position(k)).None? ==>
                keys == old(keys) && vals == old(vals) && count == old(count) &&
                hashes == old(hashes) && offset == old(offset)
      ensures old(Position(k)).Some? ==>
                var p := old(Position(k)).value;
                keys == old(keys)[..p] + old(keys)[p + 1..] &&
                vals == old(vals)[..p] + old(vals)[p + 1..]
      ensures old(Position(k)).Some? ==>
                (Lookup(k).None? <==> hash(k) !in old(Hashes()[Position(k).value + 1..]))
    {
      var p := IndexForKey(k);
      if p.None? {
        return None;
      }
      var v := RemoveFound(k, p.value.rawValue);
      r := Some(v);
    }

    /** The found-key path of `removeValueForKey`. */
    method RemoveFound(k: K, i: nat) returns (v: V)
      requires Valid() && Position(k) == Some(i)
      modifies this, hashes
      ensures Valid() && v == old(vals)[i] && minCap == old(minCap) && cap == old(cap)
      ensures keys == old(keys)[..i] + old(keys)[i + 1..] && vals == old(vals)[..i] + old(vals)[i + 1..]
      ensures Lookup(k).None? <==> hash(k) !in old(Hashes())[i + 1..]
    {
      ghost var hs := Hashes();
      ghost var h := hash(k);
      var kv := RemoveAt(MapIndex(i));
      v := kv.1;
      FirstEqualAfterRemoval(hs, h, i);
      assert Position(k) == FirstEqual(hs[..i] + hs[i + 1..], h);
    }

    /** Overwrites the value at the key's first position; hashes and keys
        stay, so the key then looks up to the new value. */
    method ReplaceValue(k: K, i: nat, v: V)
      requires Valid() && Position(k) == Some(i)
      modifies this
      ensures Valid() && keys == old(keys) && vals == old(vals)[i := v]
      ensures count == old(count) && hashes == old(hashes) && offset == old(offset)
      ensures cap == old(cap) && minCap == old(minCap)
      ensures Lookup(k) == Some(v)
    {
      vals := vals[i := v];
    }

    /** The key subscript setter. A value overwrites the value at the key's
        first position and inserts nothing when the key is absent; `nil`
        removes that position. */
    method SetValue(k: K, nv: Option<V>)
      requires Valid()
      modifies this, hashes
      ensures Valid() && minCap == old(minCap) && cap == old(cap)
      ensures old(Position(k)).None? ==>
                keys == old(keys) && vals == old(vals) && count == old(count) &&
                hashes == old(hashes) && offset == old(offset)
      ensures nv.Some? && old(Position(k)).Some? ==>
                keys == old(keys) && vals == old(vals)[old(Position(k)).value := nv.value] &&
                count == old(count) && hashes == old(hashes) && offset == old(offset) &&
                Lookup(k) == nv
      ensures nv.None? && old(Position(k)).Some? ==>
                var p := old(Position(k)).value;
                keys == old(keys)[..p] + old(keys)[p + 1..] &&
                vals == old(vals)[..p] + old(vals)[p + 1..] &&
                (Lookup(k).None? <==> hash(k) !in old(Hashes())[p + 1..])
    {
      var p := IndexForKey(k);
      if p.None? {
        return;
      }
      if nv.Some? {
        ReplaceValue(k, p.value.rawValue, nv.value);
      } else {
        var _ := RemoveFound(k, p.value.rawValue);
      }
    }

    /** `removeAll` as its documentation intends: no pairs remain, the key
        and value lists included; unless the capacity is kept the hash
        buffer is replaced by `minCap` fresh slots. */
    method RemoveAll(keepCapacity: bool)
      requires Valid()
      modifies this
      ensures Valid() && keys == [] && vals == [] && count == 0 && offset == 0
      ensures minCap == old(minCap)
      ensures keepCapacity ==> hashes == old(hashes) && cap == old(cap)
      ensures !keepCapacity ==> fresh(hashes) && cap == old(minCap)
    {
      count, offset := 0, 0;
      keys, vals := [], [];
      if !keepCapacity {
        cap := minCap;
        hashes := new int[cap];
      }
    }

    /** `removeAll`, as written: `count` and `offset` drop to 0 and the
        hash buffer is reset, but the key and value lists keep their
        entries, so a non-empty map no longer satisfies `Valid()`. */
    method RemoveAllAsWritten(keepCapacity: bool)
      requires Sound()
      modifies this
      ensures Sound() && keys == old(keys) && vals == old(vals) && count == 0 && offset == 0
      ensures minCap == old(minCap)
      ensures keepCapacity ==> hashes == old(hashes) && cap == old(cap)
      ensures !keepCapacity ==> fresh(hashes) && cap == old(minCap)
      ensures old(|keys|) > 0 ==> !Valid()
    {
      count, offset := 0, 0;
      if !keepCapacity {
        cap := minCap;
        hashes := new int[cap];
      }
    }

    /** `reserveCapacity`: records `m` as the minimum capacity and moves
        the hashes into exactly `m` slots when the buffer is smaller than
        `m` or holds fewer than `m` pairs. */
    method ReserveCapacity(m: nat)
      requires Valid()
      modifies this
      ensures Valid() && keys == old(keys) && vals == old(vals) && Hashes() == old(Hashes())
      ensures minCap == m && m <= cap
      ensures old(count) < m ==> fresh(hashes) && cap == m && offset == 0
      ensures m <= old(count) ==> hashes == old(hashes) && cap == old(cap) && offset == old(offset)
    {
      minCap := m;
      if cap >= m && count < m {
        Resize(m);
      } else if cap < m {
        Resize(m);
      }
    }

    /** The `keys` property: the keys in insertion order, each the key of
        its pair and hashed as its position's hash. */
    function Keys(): (r: seq<K>)
      reads this, hashes
      requires Valid()
      ensures |r| == count
      ensures forall i :: 0 <= i < |r| ==> r[i] == Pairs()[i].0 && hash(r[i]) == Hashes()[i]
    {
      keys
    }

    /** The `values` property: the values in insertion order, each the value
        of its pair. */
    function Values(): (r: seq<V>)
      reads this, hashes
      requires Valid()
      ensures |r| == count
      ensures forall i :: 0 <= i < |r| ==> r[i] == Pairs()[i].1
    {
      vals
    }

    /** `count`: the number of pairs. */
    function Count(): (n: nat)
      reads this, hashes
      requires Valid()
      ensures n == |Pairs()|
    {
      count
    }

    /** `isEmpty`. */
    function IsEmpty(): (b: bool)
      reads this, hashes
      requires Valid()
      ensures b <==> Pairs() == []
    {
      count == 0
    }

    /** `startIndex`. */
    function StartIndex(): (r: MapIndex)
      reads this, hashes
      requires Valid()
      ensures Pairs() != [] ==> r.rawValue < |Pairs()|
      ensures forall q :: LessEq(r, q) <==> 0 <= q.rawValue
    {
      MapIndex(0)
    }

    /** `endIndex`, as written: the last position rather than one past
        it, so the range from `StartIndex()` up to it leaves out the last
        pair. */
    function EndIndexAsWritten(): (r: MapIndex)
      reads this, hashes
      requires Valid()
      ensures r.Successor() == EndIndex()
      ensures count > 0 ==> 0 <= r.rawValue < count
    {
      MapIndex(count - 1)
    }

    /** `endIndex` as documented: one past the last position, so the
        positions from `StartIndex()` up to it are exactly the valid ones. */
    function EndIndex(): (r: MapIndex)
      reads this, hashes
      requires Valid()
      ensures LessEq(StartIndex(), r)
      ensures forall q :: LessEq(StartIndex(), q) && Less(q, r) <==> 0 <= q.rawValue < |Pairs()|
    {
      MapIndex(count)
    }

    /** `generate`: a generator positioned at the first pair. */
    method Generate() returns (g: OrderedMapGenerator<K, V>)
      ensures fresh(g) && g.dict == this && g.position == 0
    {
      g := new OrderedMapGenerator(this);
    }
  }

  /** `OrderedDictionaryGenerator`: a cursor over the live map (not a
      snapshot of it). */
  class OrderedMapGenerator<K, V> {
    const dict: OrderedMap<K, V>
    var position: nat

    constructor (m: OrderedMap<K, V>)
      ensures dict == m && position == 0
    {
      dict, position := m, 0;
    }

    /** `next`: the pair at the cursor, advancing it, or nothing once the
        cursor reaches the map's count. */
    method Next() returns (r: Option<(K, V)>)
      requires dict.Valid()
      modifies this
      ensures old(position) < dict.count ==>
                r == Some(dict.Pairs()[old(position)]) && position == old(position) + 1
      ensures old(position) >= dict.count ==> r == None && position == old(position)
    {
      if position < dict.count {
        r := Some(dict.At(MapIndex(position)));
        position := position + 1;
      } else {
        r := None;
      }
    }
  }

  /** `for (k, v) in m`: iterating through `Generate` yields the pairs in
      insertion order. */
  method Iterate<K, V>(m: OrderedMap<K, V>) returns (pairs: seq<(K, V)>)
    requires m.Valid()
    ensures pairs == m.Pairs()
  {
    var g := m.Generate();
    pairs := [];
    while true
      invariant fresh(g) && g.dict == m && g.position <= m.count
      invariant pairs == m.Pairs()[..g.position]
      decreases m.count - g.position
    {
      var r := g.Next();
      if r.None? {
        break;
      }
      pairs := pairs + [r.value];
    }
  }

  /** After `RemoveAllAsWritten`, putting `(2, "b")` into a map that held
      `(1, "a")` and looking up 2 yields the stale `"a"`: the new hash sits
      at position 0, where the old value list still holds `"a"`. */
  method StaleValueAfterRemoveAll() returns (r: Option<string>)
    ensures r == Some("a")
  {
    var m := new OrderedMap.Literal((x: int) => x, [(1, "a")]);
    m.RemoveAllAsWritten(true);
    var _ := m.PutValue("b", 2);
    assert m.Hashes() == [2];
    r := m.Get(2);
  }

  /** The same steps with `RemoveAll` yield the new value. */
  method FreshValueAfterRemoveAll() returns (r: Option<string>)
    ensures r == Some("b")
  {
    var m := new OrderedMap.Literal((x: int) => x, [(1, "a")]);
    m.RemoveAll(true);
    var _ := m.PutValue("b", 2);
    assert m.Hashes() == [2];
    r := m.Get(2);
  }
}

=== FILE: scenarios.dfy ===
/** Concrete runs of the two containers, each stated as what it returns. */
module Scenarios {
  import opened Common
  import opened Arrays
  import opened Maps

  /** Appending 4 to the literal `[1, 2, 3]` gives `[1, 2, 3, 4]`; the full
      buffer of three grows to `Grown(3)`, that is 5 slots. */
  method AppendToLiteral() returns (c: seq<int>, capacity: nat)
    ensures c == [1, 2, 3, 4] && capacity == 5
  {
    var a := new OArray.Literal([1, 2, 3]);
    a.Append(4);
    c := a.Contents();
    capacity := a.Capacity();
  }

  /** Two front removals leave two slots of slack before `[1, 2, 3]`;
      inserting 99 at index 0 then uses one of them, so the storage and its
      size `_capacity` (`cap`) stay as they were. The public `capacity`,
      which leaves out the slack, grows from 3 to 4. */
  method InsertIntoFrontSlack() returns (c: seq<int>, before: nat, after: nat, sameStorage: bool,
                                         publicBefore: nat, publicAfter: nat)
    ensures c == [99, 1, 2, 3] && before == after && sameStorage
    ensures publicBefore == 3 && publicAfter == 4
  {
    var a := new OArray.Literal([7, 8, 1, 2, 3]);
    var _ := a.RemoveFirst();
    var _ := a.RemoveFirst();
    assert a.Contents() == [1, 2, 3];
    var storage := a.buf;
    before, publicBefore := a.cap, a.Capacity();
    a.Insert(99, 0);
    c := a.Contents();
    after, publicAfter := a.cap, a.Capacity();
    sameStorage := a.buf == storage;
  }

  /** `updateValue` of 1 to `"a"`, 2 to `"b"`, then 1 to `"c"`: the third
      call overwrites in place, and iteration yields `[(1, "c"), (2, "b")]`. */
  method UpdateKeepsOrder() returns (pairs: seq<(int, string)>, replaced: Option<string>)
    ensures pairs == [(1, "c"), (2, "b")] && replaced == Some("a")
  {
    var m := new OrderedMap((x: int) => x);
    var _ := m.UpdateValue("a", 1);
    var _ := m.UpdateValue("b", 2);
    assert m.Hashes() == [1, 2];
    replaced := m.UpdateValue("c", 1);
    assert m.keys == [1, 2] && m.vals == ["c", "b"];
    pairs := Maps.Iterate(m);
  }

  /** Removing index 1 from `[10, 20, 30]` returns 20 and leaves `[10, 30]`. */
  method RemoveMiddle() returns (x: int, c: seq<int>)
    ensures x == 20 && c == [10, 30]
  {
    var a := new OArray.Literal([10, 20, 30]);
    x := a.RemoveAt(1);
    c := a.Contents();
  }
}

=== FILE: storage.dfy ===
/** Element moves between raw buffers, shared by the growable array and the
    ordered map: writing a run of values into an array, what a window of
    the written array then holds, and building a fresh buffer from three
    segments. */
module Storage {

  /** Writes `n` into `dst` from slot `at` on (the element moves and
      initialisations of the source); every other slot keeps its value. */
  method WriteSlots<T>(dst: array<T>, at: nat, n: seq<T>)
    requires at + |n| <= dst.Length
    modifies dst
    ensures dst[..] == old(dst[..])[..at] + n + old(dst[..])[at + |n|..]
  {
    ghost var before := dst[..];
    assert before[..at] == dst[..at] && before[at..] == dst[at..];
    for k := 0 to |n|
      invariant dst[..] == old(dst[..at]) + n[..k] + old(dst[at + k..])
    {
      dst[at + k] := n[k];
      assert old(dst[at + k..])[1..] == old(dst[at + k + 1..]);
      assert n[..k + 1] == n[..k] + [n[k]];
    }
  }

  /** A window of storage that covers a write holds the untouched slots
      before it, the written elements, and the untouched slots after it. */
  lemma WindowAfterWrite<T>(before: seq<T>, at: nat, n: seq<T>, lo: nat, hi: nat)
    requires lo <= at && at + |n| <= hi <= |before|
    ensures (before[..at] + n + before[at + |n|..])[lo..hi]
            == before[lo..at] + n + before[at + |n|..hi]
  {
    var after := before[..at] + n + before[at + |n|..];
    assert after[lo..hi] == after[lo..at] + after[at..at + |n|] + after[at + |n|..hi];
    assert after[at..at + |n|] == n;
  }

  /** The same window read relative to its own start: writing `n` at
      `off + lo` replaces positions `lo .. lo + |n|` of the window. */
  lemma WindowSplice<T>(before: seq<T>, off: nat, cnt: nat, lo: nat, n: seq<T>)
    requires off + cnt <= |before| && lo + |n| <= cnt
    ensures (before[..off + lo] + n + before[off + lo + |n|..])[off..off + cnt]
            == before[off..off + cnt][..lo] + n + before[off..off + cnt][lo + |n|..]
  {
    WindowAfterWrite(before, off + lo, n, off, off + cnt);
    var w := before[off..off + cnt];
    assert w[..lo] == before[off..off + lo];
    assert w[lo + |n|..] == before[off + lo + |n|..off + cnt];
  }

  /** Writing `n` at the start of a window of `cnt + |n|` slots leaves the
      window's old first `cnt` elements, from position `|n|` on, in place. */
  lemma WindowFrontWrite<T>(before: seq<T>, off: nat, cnt: nat, n: seq<T>)
    requires off + cnt + |n| <= |before|
    ensures var w := (before[..off] + n + before[off + |n|..])[off..off + cnt + |n|];
            w[..|n|] == n &&
            (|n| <= cnt ==> w[|n|..cnt] == before[off..off + cnt][|n|..])
  {
    WindowSplice(before, off, cnt + |n|, 0, n);
    var w0 := before[off..off + cnt + |n|];
    assert w0[..0] == [];
    if |n| <= cnt {
      assert w0[|n|..][..cnt - |n|] == before[off..off + cnt][|n|..];
    }
  }

  /** A new buffer of `capacity` slots holding `prefix`, `middle` and
      `suffix` from slot 0 on: the allocate-and-move-three-segments step of
      insert, interior removal, splice and range replacement. */
  method Assemble<T(0)>(capacity: nat, prefix: seq<T>, middle: seq<T>, suffix: seq<T>)
    returns (b: array<T>)
    requires |prefix| + |middle| + |suffix| <= capacity
    ensures fresh(b) && b.Length == capacity
    ensures b[..|prefix| + |middle| + |suffix|] == prefix + middle + suffix
  {
    b := new T[capacity];
    WriteSlots(b, 0, prefix);
    WriteSlots(b, |prefix|, middle);
    WriteSlots(b, |prefix| + |middle|, suffix);
  }
}
